=== FILE: README.md ===
# Portal MZS — a verified model of the school portal's core

Portal MZS is a school portal. It has three kinds of content: notices (announcements), teaching
resources (links for teachers) and library documents. They are kept in a Google spreadsheet,
one sheet per kind. An Apps Script back end reads and writes the sheets. A React front end shows
the public views and an admin area. This project models, in Dafny, the parts of the portal whose
behaviour can be stated precisely:

- **The sheet row store** (`sheet_store.dfy`, module `SheetStore`).
  - A sheet is a header row followed by data rows.
  - `getSheetData` turns each data row into a header-keyed record. It splits a string `tags`
    cell into trimmed, non-empty segments.
  - `createRow` appends one row in header order. It joins a `tags` list with `", "` and writes
    an absent field as `""`.
  - `updateRow` and `deleteRow` scan the data rows for the first one whose id cell, compared as
    a string, equals the requested id. They then rewrite that row (a field the request lacks
    keeps its old cell) or remove it.
  - `doPost` routes the nine action names to these writers and turns any exception into an
    error reply.
  - The sheet is a class whose `rows` the writers update in place. `updateRow` and `deleteRow`
    keep the source's indexed loop.
  - Each writer is proved equal to a pure effect function (`CreateEffect`, `UpdateEffect`,
    `DeleteEffect`). The properties are proved about those functions.
- **The admin editors** (`announcement_admin.dfy`, `resource_admin.dfy`, `document_admin.dfy`).
  - Each editor is a class with the component's state: the form fields, `editingId`,
    `showForm` and `deleteId`. Its methods are `resetForm`, `handleEdit`, `handleSubmit`, the
    toggles and the delete confirmation.
  - A ghost `calls` log records the callbacks the editor makes (`onAdd`, `onUpdate`,
    `onDelete`), in order.
  - The payload a submit builds is a pure function of the form, the edited id, the current
    list and the current time `now`.
  - The admin list order is proved to be the stable sort by the comparator's key.
- **The public views** (`notice_board.dfy`, `teacher_portal.dfy`, `document_library.dfy`).
  - Each view keeps only the active items.
  - The notice board sorts featured notices first, then newest first. It splits a notice's text
    into plain runs and links, colours the tags, and chooses how to show an attachment.
  - The teachers' page has category buttons headed by 'Todos', a category filter, and
    sections per category.
  - The document library groups documents by category, gives each file an icon by its type,
    and labels each section with a count and the word 'arquivo' or 'arquivos'.
  - Each view has its empty-state messages.
- **The password gate** (`password_gate.dfy`).
  - The gate is a three-field state machine (`password`, `isAuthenticated`, `error`) over the
    session storage.
  - It is modelled as a class driven by the component's handlers. A pure transition function
    `Step` specifies each handler. Lemmas about runs of events prove the gate's guarantees.

Shared modules:

- `Text`: `trim`, `split` on one character, `join`, and `String(n)` for integers.
- `Collections`: `filter`, `find`, `map`, and de-duplication through a `Set`.
- `Ordering`: `sort` with a comparator, as a stable sort by an integer-pair key.
- `Grouping`: the `reduce` that groups items by category, followed by `Object.entries`.
- `Domain`: the three content records and `||` on strings.

Dates are integer timestamps, which is what every comparison in the code reduces to through
`new Date(x).getTime()`. The current time is a parameter `now`.

Some behaviours of the code are worth stating outright, because the model follows them:

- There is no client-side normaliser: the fetched JSON is used as it is. The only coercion is
  the `tags` split in `getSheetData`. A non-string `tags` cell passes through unchanged, and so
  does it in the model (`SheetStore.ReadCell`).
- `handleSubmit` calls `onUpdate` and then resets the form unconditionally, so the form closes
  whatever the update's outcome. `HandleSubmit` models that.
- Each gate instance compares against the single `correctPassword` it is given.

## Model

| member | source | states |
|---|---|---|
| Text.TrimStart | apps_script.js:57 | drops exactly the leading white space: the result is a suffix of the input, does not start with white space, and every dropped character is white space |
| Text.TrimEnd | apps_script.js:57 | drops exactly the trailing white space: the result is a prefix of the input, does not end with white space, and every dropped character is white space |
| Text.Trim | apps_script.js:57 | the result is the slice of the input left between its leading and trailing white space: every character before or after the slice is white space, and the slice is empty or starts and ends with a non-white-space character |
| Text.TrimDropsLeadingSpace | apps_script.js:57 | trimming a trimmed string preceded by one space gives the string back |
| Text.SplitOn | apps_script.js:57 | `split` on one character always gives at least one segment |
| Text.SplitOnWithout | apps_script.js:57 | a string without the separator splits into the one-element list of itself |
| Text.SplitOnFirst | apps_script.js:57 | splitting `a + sep + b`, where `a` has no separator, gives `a` followed by the split of `b` |
| Text.Join | apps_script.js:70 | `join` of no items is the empty string, of one item that item; with two or more, the first item followed by the separator begins the result (the whole round trip is `SheetStore.TagsRoundTrip`) |
| Text.NatToDecimal | components/admin/AnnouncementManager.tsx:78 | the decimal rendering is non-empty, made of digits only, and starts with '0' only for zero |
| Text.IntToString | components/admin/AnnouncementManager.tsx:78 | `Date.now().toString()` is non-empty and starts with '-' exactly for a negative number |
| Text.NatToDecimalInjective | components/admin/AnnouncementManager.tsx:78 | different naturals have different decimal renderings |
| Text.IntToStringInjective | components/admin/AnnouncementManager.tsx:78 | different integers have different string forms, so ids made from different instants differ |
| Collections.Filter | components/TeacherPortal.tsx:13 | `filter` keeps exactly the elements satisfying the predicate, never more copies of any than the input holds, and is never longer |
| Collections.FilterCount | components/TeacherPortal.tsx:13 | `filter` keeps every copy of an element that satisfies the predicate and no copy of one that does not |
| Collections.FilterAll | apps_script.js:57 | filtering with a predicate every element satisfies is the identity |
| Collections.FilterThenFilter | components/TeacherPortal.tsx:19-21 | filtering by `p` and then by `q` is one filter by `p && q` over the original list |
| Collections.FirstIndex | components/admin/AnnouncementManager.tsx:82 | `findIndex` returns the first position whose element satisfies the predicate, and none exactly when no element does |
| Collections.Find | components/admin/AnnouncementManager.tsx:82 | `find` returns an element satisfying the predicate with no earlier element satisfying it, and nothing exactly when none does |
| Collections.FindUnique | components/admin/AnnouncementManager.tsx:82 | when exactly one element satisfies the predicate, `find` returns it |
| Collections.Map | components/TeacherPortal.tsx:16 | `map` has the input's length and applies the function at every position |
| Collections.Distinct | components/TeacherPortal.tsx:16 | `[...new Set(xs)]` holds no duplicates and has exactly the input's members |
| Collections.DistinctInFirstAppearanceOrder | components/TeacherPortal.tsx:16 | the values of the de-duplicated list stand in the order of their first occurrence in the input |
| Collections.DistinctOrderPositions | components/TeacherPortal.tsx:16 | for two values of the de-duplicated list, some occurrence of the earlier one precedes every occurrence of the later one |
| Collections.DistinctOrderOfMap | components/TeacherPortal.tsx:16 | the same order stated on the elements whose mapped labels are de-duplicated |
| Ordering.SortBy | components/NoticeBoard.tsx:13-18 | the sorted list is a permutation of the input (same multiset) and is ordered by the key |
| Ordering.SortIsStable | components/NoticeBoard.tsx:13-18 | for every key, the elements with that key appear in their input order |
| Ordering.StableSortIsUnique | components/NoticeBoard.tsx:13-18 | two key-sorted lists whose equal-key elements come in the same order are equal |
| Ordering.SortByIsTheStableSort | components/NoticeBoard.tsx:13-18 | any key-sorted arrangement that keeps equal keys in input order is `SortBy` of the input, whatever algorithm the engine uses |
| Grouping.InGroup | components/TeacherPortal.tsx:24-31 | a category's group holds only items of that category and is no longer than the list |
| Grouping.GroupMap | components/TeacherPortal.tsx:24-31 | the `reduce` accumulator never holds an empty array, since an array is created only to take an item (its exact contents are `Grouping.GroupMapHoldsGroups`) |
| Grouping.GroupMapHoldsGroups | components/TeacherPortal.tsx:24-31 | the `reduce` accumulator has an entry for exactly the categories that occur, and each entry is exactly that category's items in their original order |
| Grouping.Accumulate | components/TeacherPortal.tsx:24-31 | the loop builds the `reduce` accumulator and the keys in first-insertion order |
| Grouping.GroupBy | components/TeacherPortal.tsx:24-31 | `Object.entries` of the accumulator: one entry per distinct category in first-appearance order, each holding exactly that category's items in order; group sizes sum to the list length |
| Grouping.GroupOfDistinctLabelIsNonEmpty | components/TeacherPortal.tsx:24-31 | every category that has an entry has at least one item |
| Grouping.GroupSizesTotal | components/TeacherPortal.tsx:24-31 | the groups together hold every item exactly once |
| Domain.OrElse | components/admin/AnnouncementManager.tsx:65 | `a \|\| b` on strings is `a` when `a` is non-empty, and `b` when `a` is empty |
| Domain.OptOrElse | components/admin/AnnouncementManager.tsx:66-67 | `opt \|\| b` is the value when it is present and non-empty, and `b` otherwise |
| SheetStore.IndexOf | apps_script.js:81 | `indexOf` is the first position holding the value, and -1 exactly when the row lacks it |
| SheetStore.IndexOfFirstOccurrence | apps_script.js:89 | `indexOf` of a value at its first occurrence returns that position |
| SheetStore.SplitTags | apps_script.js:56-57 | every tag read from a string cell is non-empty and trimmed |
| SheetStore.ReadCell | apps_script.js:54-59 | a string under `tags` becomes a list of non-empty trimmed segments; every other cell passes through unchanged |
| SheetStore.RowToRecord | apps_script.js:52-61 | the record has a key for every header |
| SheetStore.RecordField | apps_script.js:53-59 | under a header that no later column repeats, the record holds that column's cell as read |
| SheetStore.SheetRecords | apps_script.js:49-62 | one record per data row, in sheet order, each built from the header row and that row |
| SheetStore.GetSheetData | apps_script.js:47-63 | a missing sheet gives no records; an existing one gives one record per data row, in sheet order, each built from the header row and that row and holding a key for every header |
| SheetStore.Spreadsheet.DoGet | apps_script.js:6-16 | the reply holds, for each of the three sheets, nothing when it is missing and otherwise one header-keyed record per data row in order |
| SheetStore.WriteCell | apps_script.js:68-72 | a written cell is never `undefined`; an absent field is written as the empty string |
| SheetStore.MergeCell | apps_script.js:86-90 | an absent field keeps the current cell; a present one is written as `createRow` writes it |
| SheetStore.NewRow | apps_script.js:68-72 | one cell per header, in header order, each the written value of the request's field |
| SheetStore.MergedRow | apps_script.js:86-90 | one cell per header, each merged from the request's field and the cell under the first column with that header |
| SheetStore.MergeKeepsUndefinedFields | apps_script.js:86-90 | a column whose header the request lacks keeps its old cell; a defined field is written as `createRow` would write it |
| SheetStore.FirstRowWithId | apps_script.js:83-84 | the first row at or after the start whose id cell matches, with no match before it, or none when no row matches |
| SheetStore.MatchingRow | apps_script.js:83-84 | the row `updateRow`/`deleteRow` act on is the first data row (never the header) whose id cell reads as the requested id; there is none exactly when no data row holds that id |
| SheetStore.CellToString | apps_script.js:84 | `String(v)` gives a text cell unchanged, and renders a number as a non-empty text that starts with '-' exactly when the number is negative |
| SheetStore.NumericIdMatches | apps_script.js:84 | a data row whose id cell holds the number `n` matches the id `Date.now().toString()` made at instant `m` exactly when `n == m` |
| SheetStore.CreateEffect | apps_script.js:65-75 | creating keeps a well-shaped sheet well-shaped |
| SheetStore.UpdateEffect | apps_script.js:77-96 | updating keeps a well-shaped sheet well-shaped |
| SheetStore.DeleteEffect | apps_script.js:98-110 | deleting keeps a well-shaped sheet well-shaped |
| SheetStore.UpdateEffectAt | apps_script.js:84-92 | when row `k` is the match, the update succeeds, rewrites row `k` with the merged row, and the sheet stays well-shaped |
| SheetStore.DeleteEffectAt | apps_script.js:104-106 | when row `k` is the match, the delete succeeds, removes row `k`, and the sheet stays well-shaped |
| SheetStore.CreateRow | apps_script.js:65-75 | a missing sheet answers 'Sheet não encontrada'; otherwise the reply and new rows are `CreateEffect`'s |
| SheetStore.UpdateRow | apps_script.js:77-96 | the loop over the data rows ends with `UpdateEffect`'s reply and rows; a missing sheet answers 'Sheet não encontrada' |
| SheetStore.DeleteRow | apps_script.js:98-110 | the loop over the data rows ends with `DeleteEffect`'s reply and rows; a missing sheet answers 'Sheet não encontrada' |
| SheetStore.Sheet.constructor | apps_script.js:49 | a new sheet holds just its header row |
| SheetStore.Route | apps_script.js:27-37 | every routed action goes to one of the three sheets |
| SheetStore.RouteIsOneToOne | apps_script.js:27-37 | exactly the nine action names are routed, each to a different sheet and writer |
| SheetStore.Catch | apps_script.js:39-41 | a returned reply is passed on; a thrown error becomes an error reply carrying its text |
| SheetStore.MissingSheetEffect | apps_script.js:27-40 | on a missing sheet every writer answers 'Sheet não encontrada' (lines 66, 78 and 99), except a delete without `data`, which throws reading `data.id` before `deleteRow` is reached |
| SheetStore.SheetEffect | apps_script.js:27-37 | a routed writer keeps a well-shaped sheet well-shaped |
| SheetStore.RunWriter | apps_script.js:27-37 | the writer call on the routed sheet: `SheetEffect` on an existing sheet; 'Sheet não encontrada' for a missing one, except that a delete with no data throws first |
| SheetStore.Spreadsheet.GetSheetByName | apps_script.js:27 | a sheet is found exactly when the spreadsheet has that name |
| SheetStore.Spreadsheet.Target | apps_script.js:27-37 | the sheet an action writes to is the existing sheet named by its route |
| SheetStore.Spreadsheet.DoPost | apps_script.js:18-45 | an unknown action answers 'Ação não encontrada'; a known one gives the caught reply and new rows of its writer on its sheet; every other sheet is unchanged and all stay well-shaped |
| SheetStore.SplitJoinedTags | apps_script.js:57-70 | splitting the `", "`-joined tags on ',' gives the first tag, then each other tag preceded by a space |
| SheetStore.TrimSegment | apps_script.js:57 | trimming a tag's segment in the joined text gives the tag |
| SheetStore.TrimSegments | apps_script.js:57 | the trimmed segments of the joined text are the tags |
| SheetStore.TagsRoundTrip | apps_script.js:56-71 | joining well-formed tags on write and splitting, trimming and filtering on read gives the same list |
| SheetStore.StoredValueReadsBack | apps_script.js:56-71 | a defined value (under `tags`, a list of well-formed tags) is read back as it was written |
| SheetStore.CreateAppendsOneRow | apps_script.js:65-75 | `createRow` succeeds, appends exactly one row laid out in header order, and leaves every existing row, the header included, unchanged |
| SheetStore.ReadAfterCreate | apps_script.js:47-75 | after `createRow`, the sheet reads as before plus one record that holds each storable field of the request under its header |
| SheetStore.UpdateRewritesFirstMatch | apps_script.js:83-95 | `updateRow` succeeds exactly when a data row matches; then it rewrites only the first match, a data row holding the requested id, the header included among the untouched rows; otherwise it answers 'ID não encontrado' and changes nothing |
| SheetStore.DeleteRemovesFirstMatch | apps_script.js:103-109 | `deleteRow` succeeds exactly when a data row matches; then it removes exactly the first match, a data row holding the requested id, keeps the other rows in order, and the count drops by one; otherwise it answers 'ID não encontrado' and changes nothing |
| AnnouncementAdmin.Payload | components/admin/AnnouncementManager.tsx:77-89 | a new notice gets `now` as id, date and `originalIndex`; an edited one keeps its id and the date and `originalIndex` of the notice found by id (`now` and 0 without one); title, content, author, `active` and `featured` are the form's, `tags` is the one-element list of the form's tag; the attachment url is the form's when non-empty and absent otherwise, and the attachment type is the form's exactly when the url is set |
| AnnouncementAdmin.EditThenSubmitUpdatesSameNotice | components/admin/AnnouncementManager.tsx:60-99 | editing a notice and submitting it unchanged sends `onUpdate` with that very notice |
| AnnouncementAdmin.NewNoticesGetDistinctIds | components/admin/AnnouncementManager.tsx:78 | notices created at different instants get different ids |
| AnnouncementAdmin.CompareForAdminAgreesWithKey | components/admin/AnnouncementManager.tsx:213-217 | the comparator orders two notices exactly as their (date, `originalIndex`) descending key does |
| AnnouncementAdmin.AdminList | components/admin/AnnouncementManager.tsx:213-217 | the admin list is a permutation of the notices, newest first, ties by `originalIndex` descending, equal keys in their original order |
| AnnouncementAdmin.AnnouncementManager.constructor | components/admin/AnnouncementManager.tsx:33-45 | the editor starts with the default fields, nothing edited, nothing pending deletion, the form closed and no callback made |
| AnnouncementAdmin.AnnouncementManager.ResetForm | components/admin/AnnouncementManager.tsx:47-58 | default fields, nothing edited, form closed; the pending deletion and the callbacks unchanged |
| AnnouncementAdmin.AnnouncementManager.HandleEdit | components/admin/AnnouncementManager.tsx:60-71 | the form holds the notice's fields (first tag or 'Geral', url or '', type or 'image'), the notice's id is being edited, and the form is open |
| AnnouncementAdmin.AnnouncementManager.HandleSubmit | components/admin/AnnouncementManager.tsx:73-99 | with an empty title or content nothing changes; otherwise exactly one callback is made with the payload (`onUpdate` while editing, else `onAdd`) and the form is reset |
| AnnouncementAdmin.AnnouncementManager.ToggleFeatured | components/admin/AnnouncementManager.tsx:176 | the featured switch flips `featured` and nothing else |
| AnnouncementAdmin.AnnouncementManager.ToggleActive | components/admin/AnnouncementManager.tsx:178 | the active switch flips `active` and nothing else |
| AnnouncementAdmin.AnnouncementManager.OpenForm | components/admin/AnnouncementManager.tsx:108 | either 'new notice' button (also line 122) opens the form and changes nothing else |
| AnnouncementAdmin.AnnouncementManager.MarkForDeletion | components/admin/AnnouncementManager.tsx:233 | either delete button (also line 254) records the id and makes no callback |
| ResourceAdmin.Payload | components/admin/ResourceManager.tsx:68-76 | a new resource gets `now` as id and date; an edited one keeps its id and the date of the resource found by id (`now` without one); title, url, description, category and `active` are the form's |
| ResourceAdmin.DefaultCategoryIsOffered | components/admin/ResourceManager.tsx:88-92 | the category a new or reset form starts with, 'Outros' (lines 41 and 48), is one the category select offers |
| ResourceAdmin.EditThenSubmitUpdatesSameResource | components/admin/ResourceManager.tsx:54-86 | editing a resource and submitting it unchanged sends `onUpdate` with that very resource |
| ResourceAdmin.NewResourcesGetDistinctIds | components/admin/ResourceManager.tsx:69 | resources created at different instants get different ids |
| ResourceAdmin.CompareByDateAgreesWithKey | components/admin/ResourceManager.tsx:196 | the comparator orders two resources exactly as their date-descending key does |
| ResourceAdmin.AdminList | components/admin/ResourceManager.tsx:196 | the list (sorted the same way at line 221) is a permutation of the resources, newest first, equal dates in their original order |
| ResourceAdmin.ResourceManager.constructor | components/admin/ResourceManager.tsx:33-42 | the editor starts with the default fields, nothing edited or pending, the form closed and no callback made |
| ResourceAdmin.ResourceManager.ResetForm | components/admin/ResourceManager.tsx:44-52 | empty title, url and description, category 'Outros', active, nothing edited, form closed |
| ResourceAdmin.ResourceManager.HandleEdit | components/admin/ResourceManager.tsx:54-62 | the form holds the resource's fields, its id is being edited, and the form is open |
| ResourceAdmin.ResourceManager.HandleSubmit | components/admin/ResourceManager.tsx:64-86 | with an empty title or url nothing changes; otherwise exactly one callback with the payload, then the form is reset |
| ResourceAdmin.ResourceManager.ToggleActive | components/admin/ResourceManager.tsx:170 | flips `active` and nothing else |
| ResourceAdmin.ResourceManager.OpenForm | components/admin/ResourceManager.tsx:114 | either 'new resource' button (also line 128) opens the form and changes nothing else |
| ResourceAdmin.ResourceManager.RequestDelete | components/admin/ResourceManager.tsx:211 | either delete button (also line 233) records the id pending confirmation and makes no callback |
| ResourceAdmin.ResourceManager.ConfirmDelete | components/admin/ResourceManager.tsx:106 | `onDelete` is called once with the pending id, and nothing is pending afterwards |
| ResourceAdmin.ResourceManager.CancelDelete | components/admin/ResourceManager.tsx:105 | nothing is pending and no callback is made |
| DocumentAdmin.Payload | components/admin/DocumentManager.tsx:68-76 | a new document gets `now` as id and date; an edited one keeps its id and the date of the document found by id (`now` without one); title, url, category, file type and `active` are the form's |
| DocumentAdmin.DefaultCategoryIsOffered | components/admin/DocumentManager.tsx:88-92 | the category a new or reset form starts with, 'Outros' (lines 40 and 47), is one the category select offers |
| DocumentAdmin.EditThenSubmitUpdatesSameDocument | components/admin/DocumentManager.tsx:54-86 | editing a document and submitting it unchanged sends `onUpdate` with that very document |
| DocumentAdmin.NewDocumentsGetDistinctIds | components/admin/DocumentManager.tsx:69 | documents filed at different instants get different ids |
| DocumentAdmin.CompareByDateAgreesWithKey | components/admin/DocumentManager.tsx:203 | the comparator orders two documents exactly as their date-descending key does |
| DocumentAdmin.AdminList | components/admin/DocumentManager.tsx:203 | the list (sorted the same way at line 226) is a permutation of the documents, newest first, equal dates in their original order |
| DocumentAdmin.DocumentManager.constructor | components/admin/DocumentManager.tsx:33-42 | the editor starts with the default fields, nothing edited or pending, the form closed and no callback made |
| DocumentAdmin.DocumentManager.ResetForm | components/admin/DocumentManager.tsx:44-52 | empty title and url, category 'Outros', type 'pdf', active, nothing edited, form closed |
| DocumentAdmin.DocumentManager.HandleEdit | components/admin/DocumentManager.tsx:54-62 | the form holds the document's fields, its id is being edited, and the form is open |
| DocumentAdmin.DocumentManager.HandleSubmit | components/admin/DocumentManager.tsx:64-86 | with an empty title or url nothing changes; otherwise exactly one callback with the payload, then the form is reset |
| DocumentAdmin.DocumentManager.ToggleActive | components/admin/DocumentManager.tsx:177 | flips `active` and nothing else |
| DocumentAdmin.DocumentManager.OpenForm | components/admin/DocumentManager.tsx:114 | either 'new document' button (also line 128) opens the form and changes nothing else |
| DocumentAdmin.DocumentManager.RequestDelete | components/admin/DocumentManager.tsx:216 | either delete button (also line 237) records the id pending confirmation and makes no callback |
| DocumentAdmin.DocumentManager.ConfirmDelete | components/admin/DocumentManager.tsx:106 | `onDelete` is called once with the pending id, and nothing is pending afterwards |
| DocumentAdmin.DocumentManager.CancelDelete | components/admin/DocumentManager.tsx:105 | nothing is pending and no callback is made |
| NoticeBoard.CompareNotices | components/NoticeBoard.tsx:13-18 | the comparator puts a featured notice before a non-featured one; between notices alike in that, the one with the later date comes first, and they tie exactly when their dates are equal |
| NoticeBoard.Displayed | components/NoticeBoard.tsx:11-18 | the board shows only active notices from the list, no more of them than the list holds, ordered by (featured first, newest first); `DisplayedIsTheActiveNotices` and `DisplayedOrder` complete it |
| NoticeBoard.CompareNoticesAgreesWithKey | components/NoticeBoard.tsx:13-18 | the comparator orders two notices exactly as the (featured first, newest first) key does |
| NoticeBoard.DisplayedIsTheActiveNotices | components/NoticeBoard.tsx:11-12 | the board shows every active notice as often as the list holds it, and no inactive one |
| NoticeBoard.DisplayedOrder | components/NoticeBoard.tsx:13-18 | every featured notice precedes every non-featured one, and among notices alike in that the newer comes first |
| NoticeBoard.EmptyBoardIffNoneActive | components/NoticeBoard.tsx:143-147 | the empty-board message shows exactly when no notice is active |
| NoticeBoard.SchemeLength | components/NoticeBoard.tsx:23 | the scheme matched is `http://` (7) or `https://` (8), and it lies inside the text |
| NoticeBoard.RunEnd | components/NoticeBoard.tsx:23 | the greedy `[^\s]+`: every character up to the end is non-white-space, and the run stops at white space or the end of the text |
| NoticeBoard.UrlEnd | components/NoticeBoard.tsx:23 | a match extends past its scheme and ends inside the text |
| NoticeBoard.SplitOnUrls | components/NoticeBoard.tsx:24 | the split with a capture group has an odd number of pieces |
| NoticeBoard.SplitOnUrlsConcat | components/NoticeBoard.tsx:24 | the pieces of the split concatenate to the text |
| NoticeBoard.SplitOnUrlsAlternate | components/NoticeBoard.tsx:23-27 | odd-numbered pieces are links the pattern matches; even-numbered ones contain no match |
| NoticeBoard.MatchIsLink | components/NoticeBoard.tsx:23-27 | a match is a link, and the pattern matches it again |
| NoticeBoard.PlainHasNoUrl | components/NoticeBoard.tsx:24-27 | text with no match starting in it contains no match |
| NoticeBoard.RenderContent | components/NoticeBoard.tsx:26-42 | one rendered fragment per piece of the split |
| NoticeBoard.RenderedContent | components/NoticeBoard.tsx:21-43 | the fragments read as the original text; links and plain runs alternate, starting and ending with plain text; every link is an `http(s)://` address with something after the scheme and no white space |
| NoticeBoard.TagTone | components/NoticeBoard.tsx:74-76 | red exactly for 'Urgente', purple exactly for 'Horário', the school colour otherwise |
| NoticeBoard.Attachment | components/NoticeBoard.tsx:94-120 | nothing without an attachment url; an image exactly for type 'image'; otherwise a link captioned with the type, or 'Documento' without one |
| TeacherPortal.ActiveResources | components/TeacherPortal.tsx:13 | exactly the active resources |
| TeacherPortal.ActiveKeepsEveryCopy | components/TeacherPortal.tsx:13 | every copy of an active resource is kept |
| TeacherPortal.ActiveCategory | components/TeacherPortal.tsx:16 | a category is among the active resources' categories exactly when an active resource has it |
| TeacherPortal.ActiveCategories | components/TeacherPortal.tsx:16 | the buttons after 'Todos' name each category once |
| TeacherPortal.CategoryList | components/TeacherPortal.tsx:16 | 'Todos' first, then the active categories |
| TeacherPortal.CategoryListHoldsActiveCategories | components/TeacherPortal.tsx:16 | a category has a button exactly when some active resource has it |
| TeacherPortal.CategoriesInFirstAppearanceOrder | components/TeacherPortal.tsx:16 | the buttons stand in the order in which their categories first appear among the active resources |
| TeacherPortal.Filtered | components/TeacherPortal.tsx:19-21 | 'Todos' shows all active resources; another selection shows exactly the active ones of that category |
| TeacherPortal.FilteredIsOneFilter | components/TeacherPortal.tsx:19-21 | a selection keeps its resources in their original relative order |
| TeacherPortal.DistinctOfConstant | components/TeacherPortal.tsx:24-31 | labels that all equal one category yield at most one section |
| TeacherPortal.SelectionHasAtMostOneSection | components/TeacherPortal.tsx:19-31 | with a category selected there is at most one section, and it is that category's |
| TeacherPortal.NoneAvailableIffNoActive | components/TeacherPortal.tsx:102-106 | "Nenhum recurso disponível" shows exactly when no resource is active |
| TeacherPortal.NoneInCategoryIff | components/TeacherPortal.tsx:108-112 | "Nenhum recurso encontrado nesta categoria" shows exactly when some resource is active, a category is selected, and no active resource has it |
| TeacherPortal.OneEmptyStateExactlyWhenNoSection | components/TeacherPortal.tsx:102-112 | at most one empty-state message shows, and one shows exactly when there is no section |
| TeacherPortal.Sections | components/TeacherPortal.tsx:24-66 | one non-empty section per category of the shown resources, in first-appearance order, each holding exactly that category's shown resources in order; with a selection, at most that one |
| TeacherPortal.Portal.constructor | components/TeacherPortal.tsx:10 | the initial selection is 'Todos' |
| TeacherPortal.Portal.SelectCategory | components/TeacherPortal.tsx:52 | a click selects the button's category |
| TeacherPortal.Portal.Render | components/TeacherPortal.tsx:13-112 | the page shows the category buttons, the sections of the current selection with their counts, and at most one empty-state message, one exactly when there is no section |
| DocumentLibrary.ActiveDocuments | components/DocumentLibrary.tsx:11 | exactly the active documents |
| DocumentLibrary.ActiveKeepsEveryCopy | components/DocumentLibrary.tsx:11 | every copy of an active document is kept |
| DocumentLibrary.GetIcon | components/DocumentLibrary.tsx:22-30 | the spreadsheet, image, red and blue text icons exactly for 'sheet', 'image', 'pdf' and 'doc'; the plain file icon exactly for any other type |
| DocumentLibrary.OfferedTypesHaveDistinctIcons | components/DocumentLibrary.tsx:22-30 | each type the document editor offers (pdf, doc, sheet, image) has its own icon, never the plain one |
| DocumentLibrary.CountWord | components/DocumentLibrary.tsx:47 | 'arquivo' exactly for one file, 'arquivos' otherwise |
| DocumentLibrary.EmptyExactlyWhenNoSection | components/DocumentLibrary.tsx:82-88 | "Nenhum documento encontrado" shows exactly when no document is active, which is exactly when there is no section |
| DocumentLibrary.Rows | components/DocumentLibrary.tsx:41-79 | one row per document of a section, in order, each with its type's icon |
| DocumentLibrary.Render | components/DocumentLibrary.tsx:11-88 | one non-empty section per category of the active documents, in first-appearance order, each with exactly that category's documents in order, their count and its word; the sections hold every active document; the empty message shows exactly when none is active |
| PasswordGate.Step | components/PasswordGate.tsx:12-34 | authentication is never lost; storage changes only to "true" at the gate's key and only on a correct submit; a correct submit opens the gate and clears the error; a wrong one shows the error, empties the field and leaves authentication alone; the gate opens only by a correct submit or a mount with "true" stored |
| PasswordGate.RunSnoc | components/PasswordGate.tsx:12-34 | a run extended by one event is one more step |
| PasswordGate.Run | components/PasswordGate.tsx:12-34 | a run of events that leaves the gate closed leaves the session storage as it was (the lemmas below state the rest) |
| PasswordGate.AuthenticationIsMonotone | components/PasswordGate.tsx:13-26 | once open, the gate stays open whatever events follow |
| PasswordGate.StorageChangesOnlyAtKey | components/PasswordGate.tsx:28 | over any run, the session storage is unchanged except possibly for "true" at the gate's key |
| PasswordGate.OpenGateIsRecorded | components/PasswordGate.tsx:16-28 | an open gate has "true" stored under its key, so a gate mounted again in the session opens at once |
| PasswordGate.CorrectSubmitInPrefix | components/PasswordGate.tsx:25-28 | a correct submit in a run stays in every extension of it |
| PasswordGate.OpensOnlyWithThePassword | components/PasswordGate.tsx:16-28 | in a session where the gate was not already open, it opens, and "true" is stored, only after the correct password was submitted |
| PasswordGate.Render | components/PasswordGate.tsx:36-74 | the protected page exactly when authenticated; otherwise the form, with the error message exactly when `error` is set |
| PasswordGate.SessionStorage.constructor | components/PasswordGate.tsx:17 | the storage holds the given items |
| PasswordGate.SessionStorage.GetItem | components/PasswordGate.tsx:17 | `getItem` gives the stored value, or null exactly when the key is absent |
| PasswordGate.SessionStorage.SetItem | components/PasswordGate.tsx:28 | `setItem` stores the value under the key and changes nothing else |
| PasswordGate.Gate.constructor | components/PasswordGate.tsx:12-14 | empty password, not authenticated, no error |
| PasswordGate.Gate.OnMount | components/PasswordGate.tsx:16-21 | the mount effect is `Step` on `Mount`: it opens the gate exactly when "true" is stored under the key, and changes nothing else |
| PasswordGate.Gate.OnPasswordChange | components/PasswordGate.tsx:60 | the field takes the typed text, and nothing else changes; this is `Step` on `Type`, which leaves any session storage as it was |
| PasswordGate.Gate.HandleSubmit | components/PasswordGate.tsx:23-34 | `Step` on `Submit`: the correct password opens the gate, clears the error and stores "true"; a wrong one shows the error, empties the field and leaves authentication and storage alone |
| PasswordGate.Gate.OnErrorTimeout | components/PasswordGate.tsx:32 | the timer hides the error and changes nothing else; this is `Step` on `ErrorTimeout`, which leaves any session storage as it was |
| PasswordGate.Gate.Rendered | components/PasswordGate.tsx:36-38 | the protected page shows exactly when the gate is open |

## Left out

- Network and platform calls are not modelled: `SpreadsheetApp`, `ContentService`, `JSON.parse` and `JSON.stringify`. The spreadsheet is a map from names to sheets, and a request is an action name and an optional record. `doGet` is modelled as the three reads (`SheetStore.Spreadsheet.DoGet`); the JSON response is not modelled.
- `services/api.ts`, `services/geminiService.ts`, `App.tsx`, `components/AdminPanel.tsx`, `components/Header.tsx`, `config.ts` and `constants.ts` are not part of this model. They are an HTTP fetch, a call to a foreign AI service, query and router wiring, tab navigation and static data.
- Cell values are strings, integers, booleans and lists of strings. Floating-point numbers, `Date` cells and `null` are not modelled.
  - `SheetStore.CellToString` renders integers in decimal. It does not reproduce JavaScript's number formatting for fractions or for magnitudes of 10^21 and more.
  - A `null` request `data` is treated like an absent one. JavaScript's error text would then say `null` instead of `undefined`.
- A record is a map from strings to values. The model omits two details of JavaScript objects. The first is inherited prototype keys. The second is the rule that `Object.entries` lists integer-like keys before the others. These details do not arise with the portal's sheet headers.
- `Grouping.GroupBy` and `Grouping.Accumulate` group a category named like an `Object.prototype` member ('constructor', 'toString', '__proto__') like any other. In the source, such a category would make `!acc[c]` false, `acc[c].push` would not be a function, and the `reduce` would throw. It is also not modelled that an integer-like category would be listed first. Neither case arises in the portal: categories are chosen in the editors' category select, which offers only `Domain.Categories`.
- The sheet's range is its rows as stored; every row is as wide as the header row (`SheetStore.WellShaped`). A completely blank sheet, whose data range has no header row, is not modelled.
- Dates are integer timestamps. Parsing and formatting are not modelled: `new Date(...)`, `toISOString` and `toLocaleDateString`.
  - An invalid date (NaN) is not modelled.
  - The `|| new Date()` fallback for a falsy stored date is not modelled either.
  - The several calls to `Date.now()` and `new Date()` in one submit are one instant `now`.
- `originalIndex` of resources and documents is not modelled. Their editors never set it and no view reads it.
- The admin form inputs' `onChange` setters are not modelled, except the switches (`Toggle`). Each setter just assigns its field. The password field's setter is modelled (`PasswordGate.Gate.OnPasswordChange`).
- The notice editor's delete button only records `deleteId`. That editor has no confirmation dialog and never calls `onDelete`, so `MarkForDeletion` makes no callback.
- Toast notifications, JSX layout, styling and animations are not modelled.
- The gate's `title` prop only labels the form and is not modelled.
- The gate's 3-second timer is an `ErrorTimeout` event that may occur at any point. The model does not capture timing, so a timer from an earlier wrong password may clear a later error early, as the component's timers can.
- `SheetStore.RunWriter`: the `if` chain of `doPost` tests each action name in turn. The model routes through `Route` once, which is equivalent because the nine names are distinct (`RouteIsOneToOne`) and each branch runs at most one writer.

=== FILE: announcement_admin.dfy ===
/** The notice editor of the admin area: a form that creates a notice or edits an existing
    one, and the admin list of all notices, newest first. */
module AnnouncementAdmin {
  import opened Wrappers
  import opened Text
  import opened Collections
  import opened Ordering
  import opened Domain

  /** The form's fields. */
  datatype Form = Form(
    title: string,
    content: string,
    author: string,
    tag: string,
    attachUrl: string,
    attachType: string,
    active: bool,
    featured: bool)

  /** The fields after `resetForm` (and when the editor first appears). */
  const DefaultForm := Form("", "", DefaultAuthor, DefaultTag, "", DefaultAttachType, true, false)

  /** The author, tag and attachment type a fresh form starts with. */
  const DefaultAuthor := "Secretaria"
  const DefaultTag := "Geral"
  const DefaultAttachType := "image"

  /** The fields `handleEdit` loads from a notice: its first tag, or 'Geral' when it has none,
      its attachment url or the empty string, its attachment type or 'image'. */
  function FormOf(item: Announcement): Form {
    Form(item.title, item.content, item.author,
      if |item.tags| > 0 then OrElse(item.tags[0], DefaultTag) else DefaultTag,
      OptOrElse(item.attachmentUrl, ""), OptOrElse(item.attachmentType, DefaultAttachType),
      item.active, item.featured)
  }

  /** `if (!title || !content) return;` */
  predicate CanSubmit(f: Form) {
    f.title != "" && f.content != ""
  }

  /** The notice with id `id` that `announcements.find` returns. */
  function FindById(items: seq<Announcement>, id: string): Option<Announcement> {
    Find(items, (a: Announcement) => a.id == id)
  }

  /** The payload `handleSubmit` builds at time `now`: a new notice gets `now` as its id (in
      decimal), its date and its `originalIndex`; an edited one keeps the edited id and the
      date and `originalIndex` of the notice with that id (`now` and 0 if there is none).
      The attachment type is only set together with a non-empty attachment url. */
  function Payload(f: Form, editingId: Option<string>, items: seq<Announcement>, now: Timestamp): (p: Announcement)
    ensures p.title == f.title && p.content == f.content && p.author == f.author
    ensures p.tags == [f.tag]
    ensures p.active == f.active && p.featured == f.featured
    ensures p.attachmentType.Some? ==> p.attachmentUrl.Some? && p.attachmentUrl.value != ""
    ensures p.attachmentUrl.Some? <==> f.attachUrl != ""
    ensures p.attachmentUrl.Some? ==> p.attachmentUrl.value == f.attachUrl && p.attachmentType == Some(f.attachType)
    ensures !Truthy(editingId) ==> p.id == IntToString(now) && p.date == now && p.originalIndex == now
    ensures Truthy(editingId) ==> p.id == editingId.value
    ensures Truthy(editingId) && FindById(items, editingId.value).None? ==> p.date == now && p.originalIndex == 0
    ensures Truthy(editingId) && FindById(items, editingId.value).Some? ==>
      var old_ := FindById(items, editingId.value).value;
      old_ in items && old_.id == p.id && p.date == old_.date && p.originalIndex == old_.originalIndex
  {
    var found := if Truthy(editingId) then FindById(items, editingId.value) else None;
    Announcement(
      if Truthy(editingId) then editingId.value else IntToString(now),
      f.title,
      f.content,
      if !Truthy(editingId) then now else if found.Some? then found.value.date else now,
      f.author,
      [f.tag],
      if f.attachUrl != "" then Some(f.attachUrl) else None,
      if f.attachUrl != "" then Some(f.attachType) else None,
      f.active,
      f.featured,
      if !Truthy(editingId) then now else if found.Some? then found.value.originalIndex else 0)
  }

  /** The one callback a valid submit makes: `onUpdate` while editing, `onAdd` otherwise. */
  function Submission(f: Form, editingId: Option<string>, items: seq<Announcement>, now: Timestamp): Callback<Announcement> {
    var p := Payload(f, editingId, items, now);
    if Truthy(editingId) then Updated(p) else Added(p)
  }

  /** A notice the editor can reproduce: a non-empty id, exactly one non-empty tag, and an
      attachment type exactly when there is a (non-empty) attachment url. */
  predicate Editable(item: Announcement) {
    item.id != "" && |item.tags| == 1 && item.tags[0] != "" &&
    (item.attachmentUrl.Some? ==> item.attachmentUrl.value != "" && item.attachmentType.Some? && item.attachmentType.value != "") &&
    (item.attachmentUrl.None? ==> item.attachmentType.None?)
  }

  /** Editing a notice and submitting without changes sends `onUpdate` with that very notice,
      whenever it is the only notice with its id. */
  lemma EditThenSubmitUpdatesSameNotice(items: seq<Announcement>, item: Announcement, now: Timestamp)
    requires item in items && Editable(item)
    requires forall a :: a in items && a.id == item.id ==> a == item
    ensures Submission(FormOf(item), Some(item.id), items, now) == Updated(item)
  {
    FindUnique(items, (a: Announcement) => a.id == item.id, item);
    var p := Payload(FormOf(item), Some(item.id), items, now);
    assert p.tags == item.tags;
  }

  /** Notices created at different instants get different ids. */
  lemma NewNoticesGetDistinctIds(f: Form, g: Form, items: seq<Announcement>, now1: Timestamp, now2: Timestamp)
    requires now1 != now2
    ensures Payload(f, None, items, now1).id != Payload(g, None, items, now2).id
  {
    if IntToString(now1) == IntToString(now2) {
      IntToStringInjective(now1, now2);
    }
  }

  /** The admin list order: date descending, ties by `originalIndex` descending. */
  function AdminKey(a: Announcement): Key {
    (-a.date, -a.originalIndex)
  }

  /** The comparator of the admin list, as written: negative puts `a` first. */
  function CompareForAdmin(a: Announcement, b: Announcement): int {
    if a.date != b.date then b.date - a.date else b.originalIndex - a.originalIndex
  }

  /** The comparator puts `a` first exactly when `a`'s key is the smaller, and calls two notices
      equal exactly when their keys are equal; so sorting by it is sorting by `AdminKey`. */
  lemma CompareForAdminAgreesWithKey(a: Announcement, b: Announcement)
    ensures CompareForAdmin(a, b) < 0 <==> KeyLe(AdminKey(a), AdminKey(b)) && AdminKey(a) != AdminKey(b)
    ensures CompareForAdmin(a, b) == 0 <==> AdminKey(a) == AdminKey(b)
  {
  }

  /** `[...announcements].sort(...)`: every notice once, newest first, ties by
      `originalIndex` descending, equal keys in their original order. */
  function AdminList(items: seq<Announcement>): (r: seq<Announcement>)
    ensures multiset(r) == multiset(items)
    ensures forall i, j :: 0 <= i < j < |r| ==>
      r[i].date > r[j].date || (r[i].date == r[j].date && r[i].originalIndex >= r[j].originalIndex)
    ensures forall k :: WithKey(r, AdminKey, k) == WithKey(items, AdminKey, k)
  {
    var r := SortBy(items, AdminKey);
    forall i, j | 0 <= i < j < |r|
      ensures r[i].date > r[j].date || (r[i].date == r[j].date && r[i].originalIndex >= r[j].originalIndex)
    {
      assert KeyLe(AdminKey(r[i]), AdminKey(r[j]));
    }
    forall k ensures WithKey(r, AdminKey, k) == WithKey(items, AdminKey, k) {
      SortIsStable(items, AdminKey, k);
    }
    r
  }

  /** The editor's state. `calls` records, in order, the callbacks it has made. */
  class AnnouncementManager {
    var editingId: Option<string>
    var deleteId: Option<string>
    var showForm: bool
    var title: string
    var content: string
    var author: string
    var tag: string
    var attachUrl: string
    var attachType: string
    var active: bool
    var featured: bool
    ghost var calls: seq<Callback<Announcement>>

    function Fields(): Form
      reads this
    {
      Form(title, content, author, tag, attachUrl, attachType, active, featured)
    }

    constructor ()
      ensures Fields() == DefaultForm && editingId == None && deleteId == None && !showForm
      ensures calls == []
    {
      editingId, deleteId, showForm := None, None, false;
      title, content, author, tag := "", "", DefaultAuthor, DefaultTag;
      attachUrl, attachType, active, featured := "", DefaultAttachType, true, false;
      calls := [];
    }

    /** `resetForm`: default fields, nothing being edited, form closed. */
    method ResetForm()
      modifies this
      ensures Fields() == DefaultForm && editingId == None && !showForm
      ensures deleteId == old(deleteId) && unchanged(`calls)
    {
      var f := DefaultForm;
      title, content, author, tag := f.title, f.content, f.author, f.tag;
      attachUrl, attachType, active, featured := f.attachUrl, f.attachType, f.active, f.featured;
      editingId := None;
      showForm := false;
    }

    /** `handleEdit(item)`: load the notice into the form and open it. */
    method HandleEdit(item: Announcement)
      modifies this
      ensures Fields() == FormOf(item) && editingId == Some(item.id) && showForm
      ensures deleteId == old(deleteId) && unchanged(`calls)
    {
      editingId := Some(item.id);
      var f := FormOf(item);
      title, content, author, tag := f.title, f.content, f.author, f.tag;
      attachUrl, attachType, active, featured := f.attachUrl, f.attachType, f.active, f.featured;
      showForm := true;
    }

    /** `handleSubmit` at time `now`: with an empty title or content nothing happens;
        otherwise exactly one callback is made, with the payload, and the form is reset. */
    method HandleSubmit(announcements: seq<Announcement>, now: Timestamp)
      modifies this
      ensures !CanSubmit(old(Fields())) ==> unchanged(this)
      ensures CanSubmit(old(Fields())) ==>
        calls == old(calls) + [Submission(old(Fields()), old(editingId), announcements, now)] &&
        Fields() == DefaultForm && editingId == None && !showForm && deleteId == old(deleteId)
    {
      if title == "" || content == "" {
        return;
      }
      var payload := Payload(Fields(), editingId, announcements, now);
      if Truthy(editingId) {
        calls := calls + [Updated(payload)];
      } else {
        calls := calls + [Added(payload)];
      }
      ResetForm();
    }

    /** The "featured" switch: flips the field and nothing else. */
    method ToggleFeatured()
      modifies this
      ensures featured == !old(featured)
      ensures Fields() == old(Fields()).(featured := featured)
      ensures editingId == old(editingId) && deleteId == old(deleteId) && showForm == old(showForm) && unchanged(`calls)
    {
      featured := !featured;
    }

    /** The "visible" switch: flips the field and nothing else. */
    method ToggleActive()
      modifies this
      ensures active == !old(active)
      ensures Fields() == old(Fields()).(active := active)
      ensures editingId == old(editingId) && deleteId == old(deleteId) && showForm == old(showForm) && unchanged(`calls)
    {
      active := !active;
    }

    /** The "new notice" button: opens the form with whatever it holds. */
    method OpenForm()
      modifies this
      ensures showForm
      ensures Fields() == old(Fields()) && editingId == old(editingId) && deleteId == old(deleteId) && unchanged(`calls)
    {
      showForm := true;
    }

    /** The delete button: records the id, and nothing ever acts on it. */
    method MarkForDeletion(id: string)
      modifies this
      ensures deleteId == Some(id)
      ensures Fields() == old(Fields()) && editingId == old(editingId) && showForm == old(showForm) && unchanged(`calls)
    {
      deleteId := Some(id);
    }
  }
}

=== FILE: collections.dfy ===
/** The optional value used for JavaScript's `undefined`/`null` results. */
module Wrappers {
  datatype Option<+T> = None | Some(value: T)
}

/** The array operations the components use: `filter`, `find`/`findIndex`, `map`, and
    de-duplication through a `Set` (which keeps first-insertion order). */
module Collections {
  import opened Wrappers

  /** `xs.filter(p)`: the elements satisfying `p`, in their original order. */
  function Filter<T(!new)>(xs: seq<T>, p: T -> bool): (r: seq<T>)
    ensures |r| <= |xs|
    ensures forall x :: x in r <==> x in xs && p(x)
    ensures multiset(r) <= multiset(xs)
    decreases |xs|
  {
    if |xs| == 0 then []
    else
      var init := Filter(xs[..|xs| - 1], p);
      var last := xs[|xs| - 1];
      assert xs == xs[..|xs| - 1] + [last];
      if p(last) then init + [last] else init
  }

  lemma FilterSnoc<T(!new)>(xs: seq<T>, x: T, p: T -> bool)
    ensures Filter(xs + [x], p) == if p(x) then Filter(xs, p) + [x] else Filter(xs, p)
  {
    assert (xs + [x])[..|xs|] == xs;
  }

  /** Filtering keeps every copy of an element that satisfies `p` and no copy of one that
      does not. */
  lemma {:induction false} FilterCount<T(!new)>(xs: seq<T>, p: T -> bool, x: T)
    ensures multiset(Filter(xs, p))[x] == if p(x) then multiset(xs)[x] else 0
    decreases |xs|
  {
    if |xs| > 0 {
      var init, last := xs[..|xs| - 1], xs[|xs| - 1];
      assert xs == init + [last];
      FilterSnoc(init, last, p);
      FilterCount(init, p, x);
    }
  }

  /** Keeping every element is the identity. */
  lemma {:induction false} FilterAll<T(!new)>(xs: seq<T>, p: T -> bool)
    requires forall x :: x in xs ==> p(x)
    ensures Filter(xs, p) == xs
    decreases |xs|
  {
    if |xs| > 0 {
      FilterAll(xs[..|xs| - 1], p);
      assert xs == xs[..|xs| - 1] + [xs[|xs| - 1]];
    }
  }

  /** Filtering by `p` and then by `q` is filtering once by their conjunction. */
  lemma {:induction false} FilterThenFilter<T(!new)>(xs: seq<T>, p: T -> bool, q: T -> bool, both: T -> bool)
    requires forall x :: both(x) == (p(x) && q(x))
    ensures Filter(Filter(xs, p), q) == Filter(xs, both)
    decreases |xs|
  {
    if |xs| > 0 {
      var init, last := xs[..|xs| - 1], xs[|xs| - 1];
      assert xs == init + [last];
      FilterThenFilter(init, p, q, both);
      FilterSnoc(init, last, p);
      FilterSnoc(init, last, both);
      FilterSnoc(Filter(init, p), last, q);
    }
  }

  /** `xs.findIndex(p)`, with `None` for -1: the first position whose element satisfies `p`. */
  function FirstIndex<T>(xs: seq<T>, p: T -> bool): (r: Option<nat>)
    ensures r.Some? ==> r.value < |xs| && p(xs[r.value]) && forall j :: 0 <= j < r.value ==> !p(xs[j])
    ensures r.None? ==> forall j :: 0 <= j < |xs| ==> !p(xs[j])
    decreases |xs|
  {
    if |xs| == 0 then None
    else if p(xs[0]) then Some(0)
    else match FirstIndex(xs[1..], p)
      case None => None
      case Some(i) => Some(i + 1)
  }

  /** `xs.find(p)`, with `None` for `undefined`: the first element satisfying `p`. */
  function Find<T>(xs: seq<T>, p: T -> bool): (r: Option<T>)
    ensures r.Some? ==> p(r.value) && exists k :: 0 <= k < |xs| && xs[k] == r.value && forall j :: 0 <= j < k ==> !p(xs[j])
    ensures r.None? ==> forall j :: 0 <= j < |xs| ==> !p(xs[j])
  {
    match FirstIndex(xs, p)
    case None => None
    case Some(i) => Some(xs[i])
  }

  /** An element that is the only one satisfying `p` is the one `find` returns. */
  lemma FindUnique<T>(xs: seq<T>, p: T -> bool, x: T)
    requires x in xs && p(x)
    requires forall y :: y in xs && p(y) ==> y == x
    ensures Find(xs, p) == Some(x)
  {
  }

  /** `xs.map(f)` */
  function Map<T, U>(xs: seq<T>, f: T -> U): (r: seq<U>)
    ensures |r| == |xs| && forall i :: 0 <= i < |xs| ==> r[i] == f(xs[i])
  {
    seq(|xs|, i requires 0 <= i < |xs| => f(xs[i]))
  }

  lemma MapSnoc<T, U>(xs: seq<T>, x: T, f: T -> U)
    ensures Map(xs + [x], f) == Map(xs, f) + [f(x)]
  {
  }

  predicate NoDuplicates<T(==,!new)>(s: seq<T>) {
    forall i, j :: 0 <= i < j < |s| ==> s[i] != s[j]
  }

  /** `[...new Set(xs)]`: each value once, in the order of its first appearance. */
  function Distinct<T(==,!new)>(xs: seq<T>): (r: seq<T>)
    ensures NoDuplicates(r)
    ensures forall x :: x in r <==> x in xs
    decreases |xs|
  {
    if |xs| == 0 then []
    else
      var d := Distinct(xs[..|xs| - 1]);
      var last := xs[|xs| - 1];
      assert xs == xs[..|xs| - 1] + [last];
      if last in d then d else d + [last]
  }

  lemma DistinctSnoc<T(!new)>(xs: seq<T>, x: T)
    ensures Distinct(xs + [x]) == if x in Distinct(xs) then Distinct(xs) else Distinct(xs) + [x]
  {
    assert (xs + [x])[..|xs|] == xs;
  }

  /** The position of the first occurrence of `x` in `xs`. */
  function FirstOccurrence<T(==,!new)>(xs: seq<T>, x: T): (i: nat)
    requires x in xs
    ensures i < |xs| && xs[i] == x && x !in xs[..i]
  {
    if xs[0] == x then 0 else 1 + FirstOccurrence(xs[1..], x)
  }

  /** No occurrence comes before the first one. */
  lemma {:induction false} FirstOccurrenceIsFirst<T(!new)>(xs: seq<T>, x: T, b: nat)
    requires b < |xs| && xs[b] == x
    ensures FirstOccurrence(xs, x) <= b
  {
    if xs[0] != x {
      FirstOccurrenceIsFirst(xs[1..], x, b - 1);
    }
  }

  lemma {:induction false} FirstOccurrenceOfPrefix<T(!new)>(xs: seq<T>, ys: seq<T>, x: T)
    requires x in xs
    ensures FirstOccurrence(xs + ys, x) == FirstOccurrence(xs, x)
  {
    if xs[0] != x {
      assert (xs + ys)[1..] == xs[1..] + ys;
      FirstOccurrenceOfPrefix(xs[1..], ys, x);
    }
  }

  /** The values of `Distinct(xs)` stand in the order in which they first appear in `xs`. */
  lemma {:induction false} DistinctInFirstAppearanceOrder<T(!new)>(xs: seq<T>, i: nat, j: nat)
    requires i < j < |Distinct(xs)|
    ensures FirstOccurrence(xs, Distinct(xs)[i]) < FirstOccurrence(xs, Distinct(xs)[j])
    decreases |xs|
  {
    var init := xs[..|xs| - 1];
    var last := xs[|xs| - 1];
    assert xs == init + [last];
    var d := Distinct(init);
    DistinctSnoc(init, last);
    if j < |d| {
      DistinctInFirstAppearanceOrder(init, i, j);
      FirstOccurrenceOfPrefix(init, [last], d[i]);
      FirstOccurrenceOfPrefix(init, [last], d[j]);
    } else {
      // d[j] is `last`, new in this step: its first occurrence is the final position
      assert Distinct(xs)[j] == last && last !in init;
      assert FirstOccurrence(xs, last) == |init|;
      FirstOccurrenceOfPrefix(init, [last], d[i]);
    }
  }

  /** The same order stated by positions: some occurrence of the earlier value comes before
      every occurrence of the later one. */
  lemma DistinctOrderPositions<T(!new)>(xs: seq<T>, i: nat, j: nat)
    requires i < j < |Distinct(xs)|
    ensures exists a :: 0 <= a < |xs| && xs[a] == Distinct(xs)[i] &&
                        forall b :: 0 <= b < |xs| && xs[b] == Distinct(xs)[j] ==> a < b
  {
    var d := Distinct(xs);
    assert d[i] in d && d[j] in d;
    DistinctInFirstAppearanceOrder(xs, i, j);
    var a := FirstOccurrence(xs, d[i]);
    forall b | 0 <= b < |xs| && xs[b] == d[j] ensures a < b {
      FirstOccurrenceIsFirst(xs, d[j], b);
    }
  }

  /** The order of `Distinct` over mapped values, stated on the original elements: `a` is a
      position holding the earlier value that precedes every position holding the later. */
  lemma DistinctOrderOfMap<T, U(!new)>(xs: seq<T>, f: T -> U, i: nat, j: nat) returns (a: nat)
    requires i < j < |Distinct(Map(xs, f))|
    ensures a < |xs| && f(xs[a]) == Distinct(Map(xs, f))[i]
    ensures forall b :: 0 <= b < |xs| && f(xs[b]) == Distinct(Map(xs, f))[j] ==> a < b
  {
    var labels := Map(xs, f);
    DistinctOrderPositions(labels, i, j);
    a :| 0 <= a < |labels| && labels[a] == Distinct(labels)[i] &&
         forall b :: 0 <= b < |labels| && labels[b] == Distinct(labels)[j] ==> a < b;
    assert f(xs[a]) == labels[a];
  }
}

=== FILE: document_admin.dfy ===
/** The document editor of the admin area: a form that files or edits a document of the
    library, a delete confirmation, and the list of all documents, newest first. */
module DocumentAdmin {
  import opened Wrappers
  import opened Text
  import opened Collections
  import opened Ordering
  import opened Domain

  /** The form's fields. */
  datatype Form = Form(title: string, url: string, cat: string, fileType: string, active: bool)

  /** The fields after `resetForm`. */
  const DefaultForm := Form("", "", "Outros", "pdf", true)

  /** The category a reset document form shows is one its category select offers. */
  lemma DefaultCategoryIsOffered()
    ensures DefaultForm.cat in Categories
  {
  }

  /** The fields `handleEdit` loads from a document. */
  function FormOf(item: DocumentItem): Form {
    Form(item.title, item.url, item.category, item.fileType, item.active)
  }

  /** `if (!title || !url) return;` */
  predicate CanSubmit(f: Form) {
    f.title != "" && f.url != ""
  }

  /** The document with id `id` that `documents.find` returns. */
  function FindById(items: seq<DocumentItem>, id: string): Option<DocumentItem> {
    Find(items, (d: DocumentItem) => d.id == id)
  }

  /** The payload `handleSubmit` builds at time `now`: a new document gets `now` as its id (in
      decimal) and its date; an edited one keeps the edited id and the date of the document
      with that id (`now` if there is none). */
  function Payload(f: Form, editingId: Option<string>, items: seq<DocumentItem>, now: Timestamp): (p: DocumentItem)
    ensures p.title == f.title && p.url == f.url && p.category == f.cat && p.fileType == f.fileType && p.active == f.active
    ensures !Truthy(editingId) ==> p.id == IntToString(now) && p.date == now
    ensures Truthy(editingId) ==> p.id == editingId.value
    ensures Truthy(editingId) && FindById(items, editingId.value).None? ==> p.date == now
    ensures Truthy(editingId) && FindById(items, editingId.value).Some? ==>
      var old_ := FindById(items, editingId.value).value;
      old_ in items && old_.id == p.id && p.date == old_.date
  {
    var found := if Truthy(editingId) then FindById(items, editingId.value) else None;
    DocumentItem(
      if Truthy(editingId) then editingId.value else IntToString(now),
      f.title,
      f.cat,
      f.url,
      f.fileType,
      if !Truthy(editingId) then now else if found.Some? then found.value.date else now,
      f.active)
  }

  /** The one callback a valid submit makes: `onUpdate` while editing, `onAdd` otherwise. */
  function Submission(f: Form, editingId: Option<string>, items: seq<DocumentItem>, now: Timestamp): Callback<DocumentItem> {
    var p := Payload(f, editingId, items, now);
    if Truthy(editingId) then Updated(p) else Added(p)
  }

  /** Editing a document and submitting without changes sends `onUpdate` with that very
      document, whenever its id is non-empty and no other document has it. */
  lemma EditThenSubmitUpdatesSameDocument(items: seq<DocumentItem>, item: DocumentItem, now: Timestamp)
    requires item in items && item.id != ""
    requires forall d :: d in items && d.id == item.id ==> d == item
    ensures Submission(FormOf(item), Some(item.id), items, now) == Updated(item)
  {
    FindUnique(items, (d: DocumentItem) => d.id == item.id, item);
  }

  /** Documents filed at different instants get different ids. */
  lemma NewDocumentsGetDistinctIds(f: Form, g: Form, items: seq<DocumentItem>, now1: Timestamp, now2: Timestamp)
    requires now1 != now2
    ensures Payload(f, None, items, now1).id != Payload(g, None, items, now2).id
  {
    if IntToString(now1) == IntToString(now2) {
      IntToStringInjective(now1, now2);
    }
  }

  function DateKey(d: DocumentItem): Key {
    (-d.date, 0)
  }

  /** The comparator of the list, as written: `b.date - a.date`. */
  function CompareByDate(a: DocumentItem, b: DocumentItem): int {
    b.date - a.date
  }

  /** The comparator puts `a` first exactly when `a`'s key is the smaller, and calls two
      documents equal exactly when their keys are equal. */
  lemma CompareByDateAgreesWithKey(a: DocumentItem, b: DocumentItem)
    ensures CompareByDate(a, b) < 0 <==> KeyLe(DateKey(a), DateKey(b)) && DateKey(a) != DateKey(b)
    ensures CompareByDate(a, b) == 0 <==> DateKey(a) == DateKey(b)
  {
  }

  /** `[...documents].sort(...)`: every document once, newest first, equal dates in their
      original order. */
  function AdminList(items: seq<DocumentItem>): (r: seq<DocumentItem>)
    ensures multiset(r) == multiset(items)
    ensures forall i, j :: 0 <= i < j < |r| ==> r[i].date >= r[j].date
    ensures forall k :: WithKey(r, DateKey, k) == WithKey(items, DateKey, k)
  {
    var r := SortBy(items, DateKey);
    forall i, j | 0 <= i < j < |r| ensures r[i].date >= r[j].date {
      assert KeyLe(DateKey(r[i]), DateKey(r[j]));
    }
    forall k ensures WithKey(r, DateKey, k) == WithKey(items, DateKey, k) {
      SortIsStable(items, DateKey, k);
    }
    r
  }

  /** The editor's state. `calls` records, in order, the callbacks it has made. */
  class DocumentManager {
    var editingId: Option<string>
    var deleteId: Option<string>
    var showForm: bool
    var title: string
    var url: string
    var cat: string
    var fileType: string
    var active: bool
    ghost var calls: seq<Callback<DocumentItem>>

    function Fields(): Form
      reads this
    {
      Form(title, url, cat, fileType, active)
    }

    constructor ()
      ensures Fields() == DefaultForm && editingId == None && deleteId == None && !showForm
      ensures calls == []
    {
      editingId, deleteId, showForm := None, None, false;
      title, url, cat, fileType, active := "", "", "Outros", "pdf", true;
      calls := [];
    }

    /** `resetForm`: default fields, nothing being edited, form closed. */
    method ResetForm()
      modifies this
      ensures Fields() == DefaultForm && editingId == None && !showForm
      ensures deleteId == old(deleteId) && unchanged(`calls)
    {
      title, url := "", "";
      cat := "Outros";
      fileType := "pdf";
      active := true;
      editingId := None;
      showForm := false;
    }

    /** `handleEdit(item)`: load the document into the form and open it. */
    method HandleEdit(item: DocumentItem)
      modifies this
      ensures Fields() == FormOf(item) && editingId == Some(item.id) && showForm
      ensures deleteId == old(deleteId) && unchanged(`calls)
    {
      editingId := Some(item.id);
      title := item.title;
      url := item.url;
      cat := item.category;
      fileType := item.fileType;
      active := item.active;
      showForm := true;
    }

    /** `handleSubmit` at time `now`: with an empty title or url nothing happens; otherwise
        exactly one callback is made, with the payload, and the form is reset. */
    method HandleSubmit(documents: seq<DocumentItem>, now: Timestamp)
      modifies this
      ensures !CanSubmit(old(Fields())) ==> unchanged(this)
      ensures CanSubmit(old(Fields())) ==>
        calls == old(calls) + [Submission(old(Fields()), old(editingId), documents, now)] &&
        Fields() == DefaultForm && editingId == None && !showForm && deleteId == old(deleteId)
    {
      if title == "" || url == "" {
        return;
      }
      var payload := Payload(Fields(), editingId, documents, now);
      if Truthy(editingId) {
        calls := calls + [Updated(payload)];
      } else {
        calls := calls + [Added(payload)];
      }
      ResetForm();
    }

    /** The "active" switch: flips the field and nothing else. */
    method ToggleActive()
      modifies this
      ensures active == !old(active)
      ensures Fields() == old(Fields()).(active := active)
      ensures editingId == old(editingId) && deleteId == old(deleteId) && showForm == old(showForm) && unchanged(`calls)
    {
      active := !active;
    }

    /** The "new document" button: opens the form with whatever it holds. */
    method OpenForm()
      modifies this
      ensures showForm
      ensures Fields() == old(Fields()) && editingId == old(editingId) && deleteId == old(deleteId) && unchanged(`calls)
    {
      showForm := true;
    }

    /** The delete button of a row: asks for confirmation. */
    method RequestDelete(id: string)
      modifies this
      ensures deleteId == Some(id)
      ensures Fields() == old(Fields()) && editingId == old(editingId) && showForm == old(showForm) && unchanged(`calls)
    {
      deleteId := Some(id);
    }

    /** "Sim, Excluir" (shown only while a deletion is pending): `onDelete` once with the
        pending id, then nothing pending. */
    method ConfirmDelete()
      requires Truthy(deleteId)
      modifies this
      ensures calls == old(calls) + [Deleted(old(deleteId).value)] && deleteId == None
      ensures Fields() == old(Fields()) && editingId == old(editingId) && showForm == old(showForm)
    {
      calls := calls + [Deleted(deleteId.value)];
      deleteId := None;
    }

    /** "Cancelar": nothing pending, and no callback. */
    method CancelDelete()
      modifies this
      ensures deleteId == None && unchanged(`calls)
      ensures Fields() == old(Fields()) && editingId == old(editingId) && showForm == old(showForm)
    {
      deleteId := None;
    }
  }
}

=== FILE: document_library.dfy ===
/** The public document library: the active documents grouped into one section per category,
    each file with an icon chosen by its type, each section with its count and the word for it, and an
    empty-state message. */
module DocumentLibrary {
  import opened Collections
  import opened Grouping
  import opened Domain

  predicate IsActive(d: DocumentItem) {
    d.active
  }

  function CategoryOf(d: DocumentItem): string {
    d.category
  }

  /** `documents.filter(d => d.active)`: the active documents, and no inactive one. */
  function ActiveDocuments(documents: seq<DocumentItem>): (r: seq<DocumentItem>)
    ensures forall x :: x in r <==> x in documents && x.active
  {
    Filter(documents, IsActive)
  }

  /** The filter keeps every copy of an active document. */
  lemma ActiveKeepsEveryCopy(documents: seq<DocumentItem>, x: DocumentItem)
    ensures multiset(ActiveDocuments(documents))[x] == if x.active then multiset(documents)[x] else 0
  {
    FilterCount(documents, IsActive, x);
  }

  /** The section headings: the categories of the active documents, each once, in the order
      they first appear. */
  function SectionCategories(documents: seq<DocumentItem>): seq<string> {
    Distinct(Map(ActiveDocuments(documents), CategoryOf))
  }

  /** The icons of `getIcon`: a spreadsheet (green), an image (purple), a text file in red or
      in blue, and a plain file (grey). */
  datatype Icon = SpreadsheetIcon | ImageIcon | RedTextIcon | BlueTextIcon | PlainFileIcon

  /** The file types the document editor offers. */
  const FileTypes: seq<string> := ["pdf", "doc", "sheet", "image"]

  /** `getIcon(type)`: one icon for each known type, the plain file for anything else. */
  function GetIcon(fileType: string): (icon: Icon)
    ensures icon == SpreadsheetIcon <==> fileType == "sheet"
    ensures icon == ImageIcon <==> fileType == "image"
    ensures icon == RedTextIcon <==> fileType == "pdf"
    ensures icon == BlueTextIcon <==> fileType == "doc"
    ensures icon == PlainFileIcon <==> fileType !in FileTypes
  {
    match fileType
    case "sheet" => SpreadsheetIcon
    case "image" => ImageIcon
    case "pdf" => RedTextIcon
    case "doc" => BlueTextIcon
    case _ => PlainFileIcon
  }

  /** Every type the editor offers has an icon of its own. */
  lemma OfferedTypesHaveDistinctIcons(s: string, t: string)
    requires s in FileTypes && t in FileTypes && s != t
    ensures GetIcon(s) != GetIcon(t) && GetIcon(s) != PlainFileIcon
  {
  }

  /** The word after a section's count. */
  function CountWord(n: nat): (w: string)
    ensures w == "arquivo" <==> n == 1
    ensures w == "arquivos" <==> n != 1
  {
    if n == 1 then "arquivo" else "arquivos"
  }

  /** "Nenhum documento encontrado" shows exactly when no document is active, which is exactly
      when there is no section. */
  lemma EmptyExactlyWhenNoSection(documents: seq<DocumentItem>)
    ensures |ActiveDocuments(documents)| == 0 <==> forall x :: x in documents ==> !x.active
    ensures |ActiveDocuments(documents)| == 0 <==> |SectionCategories(documents)| == 0
  {
    var active := ActiveDocuments(documents);
    if |active| > 0 {
      assert active[0] in active;
      assert Map(active, CategoryOf)[0] in SectionCategories(documents);
    }
  }

  /** A row of the library: the document and its icon. */
  datatype Row = Row(doc: DocumentItem, icon: Icon)

  /** A section: its category, the count and the word after it, and its rows. */
  datatype Section = Section(category: string, count: nat, word: string, rows: seq<Row>)

  /** The rows of a section, in order. */
  function Rows(items: seq<DocumentItem>): (rows: seq<Row>)
    ensures |rows| == |items|
    ensures forall k :: 0 <= k < |items| ==> rows[k].doc == items[k] && rows[k].icon == GetIcon(items[k].fileType)
  {
    Map(items, (d: DocumentItem) => Row(d, GetIcon(d.fileType)))
  }

  /** Renders the library: one section per category of the active documents, in
      first-appearance order, each with exactly that category's active documents in their
      original order, their number and the word for it; the sections hold every active
      document; and the empty-state message shows exactly when no document is active. */
  method Render(documents: seq<DocumentItem>) returns (sections: seq<Section>, empty: bool)
    ensures |sections| == |SectionCategories(documents)|
    ensures forall k :: 0 <= k < |sections| ==>
      sections[k].category == SectionCategories(documents)[k] &&
      sections[k].rows == Rows(InGroup(ActiveDocuments(documents), CategoryOf, sections[k].category)) &&
      sections[k].count == |sections[k].rows| && sections[k].count > 0 &&
      sections[k].word == CountWord(sections[k].count)
    ensures GroupSizes(ActiveDocuments(documents), CategoryOf, SectionCategories(documents)) == |ActiveDocuments(documents)|
    ensures empty <==> forall x :: x in documents ==> !x.active
    ensures empty <==> |sections| == 0
  {
    var active := ActiveDocuments(documents);
    var groups := GroupBy(active, CategoryOf);
    forall k | 0 <= k < |groups| ensures |groups[k].1| > 0 {
      GroupOfDistinctLabelIsNonEmpty(active, CategoryOf, k);
    }
    sections := seq(|groups|, k requires 0 <= k < |groups| =>
      Section(groups[k].0, |groups[k].1|, CountWord(|groups[k].1|), Rows(groups[k].1)));
    forall k | 0 <= k < |sections|
      ensures sections[k].category == SectionCategories(documents)[k]
      ensures sections[k].rows == Rows(InGroup(active, CategoryOf, sections[k].category))
      ensures sections[k].count == |sections[k].rows| && sections[k].count > 0
      ensures sections[k].word == CountWord(sections[k].count)
    {
      assert sections[k] == Section(groups[k].0, |groups[k].1|, CountWord(|groups[k].1|), Rows(groups[k].1));
    }
    empty := |active| == 0;
    EmptyExactlyWhenNoSection(documents);
  }
}

=== FILE: domain.dfy ===
/** The portal's three content records. Dates are instants as integer timestamps
    (milliseconds, what `new Date(x).getTime()` yields); categories, document types and
    attachment types are strings, because values read back from the spreadsheet are not
    checked against their enumerations. */
module Domain {
  import opened Wrappers

  type Timestamp = int

  /** A notice on the public board. `attachmentType` is only meaningful when
      `attachmentUrl` is present. */
  datatype Announcement = Announcement(
    id: string,
    title: string,
    content: string,
    date: Timestamp,
    author: string,
    tags: seq<string>,
    attachmentUrl: Option<string>,
    attachmentType: Option<string>,
    active: bool,
    featured: bool,
    originalIndex: int)

  /** A link in the teachers' resource list. */
  datatype Resource = Resource(
    id: string,
    title: string,
    description: string,
    url: string,
    category: string,
    date: Timestamp,
    active: bool)

  /** A file in the public document library; `fileType` is one of pdf, image, doc, sheet. */
  datatype DocumentItem = DocumentItem(
    id: string,
    title: string,
    category: string,
    url: string,
    fileType: string,
    date: Timestamp,
    active: bool)

  /** The categories the resource and document editors offer in their category select. */
  const Categories: seq<string> := [
    "Aprofundamentos", "Avaliação", "Documentos", "Ferramentas", "Formação",
    "Horários", "Legislação", "Líderes", "Médias/Notas", "Planejamento",
    "Práticas Integradoras", "Outros"]

  /** A call an admin form makes to the callbacks it was given (`onAdd`, `onUpdate`,
      `onDelete`). */
  datatype Callback<T> = Added(item: T) | Updated(item: T) | Deleted(id: string)

  /** JavaScript truthiness of a `string | null` value: present and non-empty. */
  predicate Truthy(s: Option<string>) {
    s.Some? && s.value != ""
  }

  /** `a || b` on strings: `b` when `a` is empty. */
  function OrElse(a: string, b: string): (r: string)
    ensures a != "" ==> r == a
    ensures a == "" ==> r == b
  {
    if a == "" then b else a
  }

  /** `opt || b` on an optional string. */
  function OptOrElse(opt: Option<string>, b: string): (r: string)
    ensures opt.Some? && opt.value != "" ==> r == opt.value
    ensures !(opt.Some? && opt.value != "") ==> r == b
  {
    if opt.Some? then OrElse(opt.value, b) else b
  }
}

=== FILE: grouping.dfy ===
/** The `reduce` that groups a list into a `Record<string, T[]>` by a label, pushing each
    item onto its label's array, followed by `Object.entries` on the result. */
module Grouping {
  import opened Collections

  /** The items whose label (`groupOf`) is `c`, in their original order. */
  function InGroup<T>(items: seq<T>, groupOf: T -> string, c: string): (r: seq<T>)
    ensures |r| <= |items|
    ensures forall i :: 0 <= i < |r| ==> groupOf(r[i]) == c
    decreases |items|
  {
    if |items| == 0 then []
    else
      var last := items[|items| - 1];
      InGroup(items[..|items| - 1], groupOf, c) + if groupOf(last) == c then [last] else []
  }

  lemma InGroupSnoc<T>(items: seq<T>, x: T, groupOf: T -> string, c: string)
    ensures InGroup(items + [x], groupOf, c) == InGroup(items, groupOf, c) + if groupOf(x) == c then [x] else []
  {
    assert (items + [x])[..|items|] == items;
  }

  /** A label no item carries has an empty group. */
  lemma {:induction false} InGroupOfAbsentLabel<T>(items: seq<T>, groupOf: T -> string, c: string)
    requires c !in Map(items, groupOf)
    ensures InGroup(items, groupOf, c) == []
    decreases |items|
  {
    if |items| > 0 {
      var init := items[..|items| - 1];
      assert Map(items, groupOf)[|items| - 1] == groupOf(items[|items| - 1]);
      forall i | 0 <= i < |init| ensures Map(init, groupOf)[i] in Map(items, groupOf) {
        assert Map(items, groupOf)[i] == Map(init, groupOf)[i];
      }
      InGroupOfAbsentLabel(init, groupOf, c);
    }
  }

  /** Every item is in the group of its own label. */
  lemma {:induction false} InGroupContains<T>(items: seq<T>, groupOf: T -> string, i: nat)
    requires i < |items|
    ensures items[i] in InGroup(items, groupOf, groupOf(items[i]))
    decreases |items|
  {
    var init, last := items[..|items| - 1], items[|items| - 1];
    if i < |init| {
      InGroupContains(init, groupOf, i);
      assert init[i] == items[i];
    }
  }

  /** Every distinct label has a non-empty group. */
  lemma GroupOfDistinctLabelIsNonEmpty<T>(items: seq<T>, groupOf: T -> string, k: nat)
    requires k < |Distinct(Map(items, groupOf))|
    ensures |InGroup(items, groupOf, Distinct(Map(items, groupOf))[k])| > 0
  {
    var labels := Map(items, groupOf);
    var c := Distinct(labels)[k];
    assert c in labels;
    var i :| 0 <= i < |labels| && labels[i] == c;
    InGroupContains(items, groupOf, i);
  }

  /** The number of items in the groups named by `keys`. */
  function GroupSizes<T>(items: seq<T>, groupOf: T -> string, keys: seq<string>): nat
    decreases |keys|
  {
    if |keys| == 0 then 0
    else GroupSizes(items, groupOf, keys[..|keys| - 1]) + |InGroup(items, groupOf, keys[|keys| - 1])|
  }

  lemma {:induction false} GroupSizesSnocItem<T>(items: seq<T>, x: T, groupOf: T -> string, keys: seq<string>)
    requires NoDuplicates(keys)
    ensures GroupSizes(items + [x], groupOf, keys) == GroupSizes(items, groupOf, keys) + if groupOf(x) in keys then 1 else 0
    decreases |keys|
  {
    if |keys| > 0 {
      var init, k := keys[..|keys| - 1], keys[|keys| - 1];
      assert keys == init + [k];
      assert NoDuplicates(init);
      GroupSizesSnocItem(items, x, groupOf, init);
      InGroupSnoc(items, x, groupOf, k);
      assert groupOf(x) in keys <==> groupOf(x) in init || groupOf(x) == k;
      assert k !in init;
    }
  }

  lemma GroupSizesSnocKey<T>(items: seq<T>, groupOf: T -> string, keys: seq<string>, c: string)
    ensures GroupSizes(items, groupOf, keys + [c]) == GroupSizes(items, groupOf, keys) + |InGroup(items, groupOf, c)|
  {
    assert (keys + [c])[..|keys|] == keys;
  }

  /** The groups, one per distinct label, hold every item exactly once between them. */
  lemma {:induction false} GroupSizesTotal<T>(items: seq<T>, groupOf: T -> string)
    ensures GroupSizes(items, groupOf, Distinct(Map(items, groupOf))) == |items|
    decreases |items|
  {
    if |items| > 0 {
      var init, x := items[..|items| - 1], items[|items| - 1];
      assert items == init + [x];
      GroupSizesTotal(init, groupOf);
      var keys := Distinct(Map(init, groupOf));
      MapSnoc(init, x, groupOf);
      DistinctSnoc(Map(init, groupOf), groupOf(x));
      GroupSizesSnocItem(init, x, groupOf, keys);
      if groupOf(x) !in keys {
        GroupSizesSnocKey(items, groupOf, keys, groupOf(x));
        InGroupSnoc(init, x, groupOf, groupOf(x));
        InGroupOfAbsentLabel(init, groupOf, groupOf(x));
      }
    }
  }

  /** The accumulator the `reduce` builds: each item pushed onto the array of its label,
      which is created empty on the label's first item. */
  function GroupMap<T>(items: seq<T>, groupOf: T -> string): (m: map<string, seq<T>>)
    ensures forall c :: c in m ==> |m[c]| > 0
    decreases |items|
  {
    if |items| == 0 then map[]
    else
      var m := GroupMap(items[..|items| - 1], groupOf);
      var last := items[|items| - 1];
      var c := groupOf(last);
      m[c := (if c in m then m[c] else []) + [last]]
  }

  /** The accumulator has an entry for exactly the labels that occur, and each entry holds
      exactly the items with that label, in their original order. */
  lemma {:induction false} GroupMapHoldsGroups<T>(items: seq<T>, groupOf: T -> string)
    ensures forall c :: c in GroupMap(items, groupOf) <==> c in Map(items, groupOf)
    ensures forall c :: c in GroupMap(items, groupOf) ==> GroupMap(items, groupOf)[c] == InGroup(items, groupOf, c)
    decreases |items|
  {
    if |items| > 0 {
      var init, last := items[..|items| - 1], items[|items| - 1];
      assert items == init + [last];
      GroupMapHoldsGroups(init, groupOf);
      MapSnoc(init, last, groupOf);
      forall c | c in GroupMap(items, groupOf) ensures GroupMap(items, groupOf)[c] == InGroup(items, groupOf, c) {
        InGroupSnoc(init, last, groupOf, c);
        if c == groupOf(last) && c !in GroupMap(init, groupOf) {
          InGroupOfAbsentLabel(init, groupOf, c);
        }
      }
    }
  }

  /** `items.reduce(...)`, with `keys` the labels in the order they were first added. */
  method Accumulate<T>(items: seq<T>, groupOf: T -> string) returns (acc: map<string, seq<T>>, keys: seq<string>)
    ensures acc == GroupMap(items, groupOf)
    ensures keys == Distinct(Map(items, groupOf))
  {
    acc, keys := map[], [];
    var i := 0;
    while i < |items|
      invariant 0 <= i <= |items|
      invariant acc == GroupMap(items[..i], groupOf)
      invariant keys == Distinct(Map(items[..i], groupOf))
    {
      var x := items[i];
      var c := groupOf(x);
      assert items[..i + 1] == items[..i] + [x];
      assert (items[..i + 1])[..i] == items[..i];
      MapSnoc(items[..i], x, groupOf);
      DistinctSnoc(Map(items[..i], groupOf), c);
      GroupMapHoldsGroups(items[..i], groupOf);
      if c !in acc {
        acc := acc[c := []];
        keys := keys + [c];
      }
      acc := acc[c := acc[c] + [x]];
      i := i + 1;
    }
    assert items[..i] == items;
  }

  /** `Object.entries(items.reduce(...))`: one `(label, group)` entry per distinct label, in the
      order the labels first appear; each group holds exactly the items with that label, in
      their original order; and the group sizes add up to the number of items. */
  method GroupBy<T>(items: seq<T>, groupOf: T -> string) returns (groups: seq<(string, seq<T>)>)
    ensures |groups| == |Distinct(Map(items, groupOf))|
    ensures forall k :: 0 <= k < |groups| ==>
      groups[k].0 == Distinct(Map(items, groupOf))[k] && groups[k].1 == InGroup(items, groupOf, groups[k].0)
    ensures GroupSizes(items, groupOf, Distinct(Map(items, groupOf))) == |items|
  {
    var acc, keys := Accumulate(items, groupOf);
    GroupMapHoldsGroups(items, groupOf);
    forall k | 0 <= k < |keys| ensures keys[k] in acc && acc[keys[k]] == InGroup(items, groupOf, keys[k]) {
      assert keys[k] in Map(items, groupOf);
    }
    groups := seq(|keys|, k requires 0 <= k < |keys| => (keys[k], acc[keys[k]]));
    GroupSizesTotal(items, groupOf);
  }
}

=== FILE: notice_board.dfy ===
/** The public notice board: the active notices, featured ones first and newest first, each
    with its text split into plain runs and links, its tags coloured and its attachment shown
    as an image or as a link. */
module NoticeBoard {
  import opened Wrappers
  import opened Text
  import opened Collections
  import opened Ordering
  import opened Domain

  // ---------------------------------------------------------------------------------------
  // The displayed list

  predicate IsActive(a: Announcement) {
    a.active
  }

  /** Featured notices rank before the others, then newer before older. */
  function BoardKey(a: Announcement): Key {
    (if a.featured then 0 else 1, -a.date)
  }

  /** The board's comparator, as written: negative puts `a` first. */
  function CompareNotices(a: Announcement, b: Announcement): (r: int)
    ensures a.featured != b.featured ==> (r < 0 <==> a.featured)
    ensures a.featured == b.featured ==> (r < 0 <==> a.date > b.date) && (r == 0 <==> a.date == b.date)
  {
    if a.featured == b.featured then b.date - a.date
    else if a.featured then -1 else 1
  }

  /** The comparator puts `a` first exactly when `a`'s key is the smaller, and calls two notices
      equal exactly when their keys are equal; so sorting by it is sorting by `BoardKey`. */
  lemma CompareNoticesAgreesWithKey(a: Announcement, b: Announcement)
    ensures CompareNotices(a, b) < 0 <==> KeyLe(BoardKey(a), BoardKey(b)) && BoardKey(a) != BoardKey(b)
    ensures CompareNotices(a, b) == 0 <==> BoardKey(a) == BoardKey(b)
  {
  }

  /** `displayAnnouncements`: the active notices, sorted by the comparator. */
  function Displayed(items: seq<Announcement>): (r: seq<Announcement>)
    ensures |r| <= |items|
    ensures forall a :: a in r ==> a in items && a.active
    ensures SortedBy(r, BoardKey)
  {
    var active := Filter(items, IsActive);
    var sorted := SortBy(active, BoardKey);
    forall a | a in sorted ensures a in active {
      assert a in multiset(sorted);
    }
    sorted
  }

  /** The board shows every active notice as many times as the list holds it, and no inactive
      one. */
  lemma DisplayedIsTheActiveNotices(items: seq<Announcement>, a: Announcement)
    ensures multiset(Displayed(items))[a] == if a.active then multiset(items)[a] else 0
    ensures a in Displayed(items) <==> a in items && a.active
  {
    FilterCount(items, IsActive, a);
  }

  /** Every featured notice comes before every notice that is not, and among notices alike in
      that respect the newer comes first. */
  lemma DisplayedOrder(items: seq<Announcement>, i: nat, j: nat)
    requires i < j < |Displayed(items)|
    ensures Displayed(items)[j].featured ==> Displayed(items)[i].featured
    ensures Displayed(items)[i].featured == Displayed(items)[j].featured ==> Displayed(items)[i].date >= Displayed(items)[j].date
  {
    var d := Displayed(items);
    assert KeyLe(BoardKey(d[i]), BoardKey(d[j]));
  }

  /** "Nenhum aviso publicado no momento." shows exactly when no notice is active. */
  lemma EmptyBoardIffNoneActive(items: seq<Announcement>)
    ensures |Displayed(items)| == 0 <==> forall a :: a in items ==> !a.active
  {
    if |Displayed(items)| > 0 {
      var a := Displayed(items)[0];
      DisplayedIsTheActiveNotices(items, a);
      assert a in items && a.active;
    } else {
      forall a | a in items ensures !a.active {
        DisplayedIsTheActiveNotices(items, a);
      }
    }
  }

  // ---------------------------------------------------------------------------------------
  // Links in the text: `text.split(/(https?:\/\/[^\s]+)/g)`

  /** `http://` starts at `i`. */
  predicate HttpAt(t: string, i: nat) {
    i + 7 <= |t| && t[i] == 'h' && t[i + 1] == 't' && t[i + 2] == 't' && t[i + 3] == 'p' &&
    t[i + 4] == ':' && t[i + 5] == '/' && t[i + 6] == '/'
  }

  /** `https://` starts at `i`. */
  predicate HttpsAt(t: string, i: nat) {
    i + 8 <= |t| && t[i] == 'h' && t[i + 1] == 't' && t[i + 2] == 't' && t[i + 3] == 'p' &&
    t[i + 4] == 's' && t[i + 5] == ':' && t[i + 6] == '/' && t[i + 7] == '/'
  }

  /** The length of the scheme `https://` or `http://` starting at `i`, or 0. */
  function SchemeLength(t: string, i: nat): (n: nat)
    ensures n == 0 || n == 7 || n == 8
    ensures n > 0 ==> i + n <= |t|
  {
    if HttpsAt(t, i) then 8 else if HttpAt(t, i) then 7 else 0
  }

  /** The pattern matches at `i`: a scheme followed by at least one non-space character. */
  predicate UrlStartsAt(t: string, i: nat) {
    SchemeLength(t, i) > 0 && i + SchemeLength(t, i) < |t| && !IsWhitespace(t[i + SchemeLength(t, i)])
  }

  /** The end of the run of non-space characters starting at `j` (the greedy `[^\s]+`). */
  function RunEnd(t: string, j: nat): (e: nat)
    requires j <= |t|
    ensures j <= e <= |t|
    ensures forall k :: j <= k < e ==> !IsWhitespace(t[k])
    ensures e == |t| || IsWhitespace(t[e])
    decreases |t| - j
  {
    if j == |t| || IsWhitespace(t[j]) then j else RunEnd(t, j + 1)
  }

  /** Where the match starting at `i` ends. */
  function UrlEnd(t: string, i: nat): (e: nat)
    requires UrlStartsAt(t, i)
    ensures i + SchemeLength(t, i) < e <= |t|
  {
    RunEnd(t, i + SchemeLength(t, i))
  }

  /** The split, scanning from `q` with the current plain run starting at `p`: the plain text
      before each match and the match itself (the captured group), then the rest. */
  function SplitOnUrls(t: string, p: nat, q: nat): (parts: seq<string>)
    requires p <= q <= |t|
    ensures |parts| % 2 == 1
    decreases |t| - q
  {
    if q == |t| then [t[p..]]
    else if UrlStartsAt(t, q) then
      var e := UrlEnd(t, q);
      [t[p..q], t[q..e]] + SplitOnUrls(t, e, e)
    else SplitOnUrls(t, p, q + 1)
  }

  function SplitContent(t: string): seq<string> {
    SplitOnUrls(t, 0, 0)
  }

  /** `part.match(urlRegex)` is non-null. */
  predicate ContainsUrl(s: string) {
    exists i :: 0 <= i < |s| && UrlStartsAt(s, i)
  }

  /** A link as the board renders it: a scheme, something after it, and no white space. */
  predicate IsLink(s: string) {
    ((HttpsAt(s, 0) && |s| > 8) || (HttpAt(s, 0) && |s| > 7)) &&
    forall k :: 0 <= k < |s| ==> !IsWhitespace(s[k])
  }

  function Concat(parts: seq<string>): string
    decreases |parts|
  {
    if |parts| == 0 then "" else parts[0] + Concat(parts[1..])
  }

  /** A match found inside a piece of the text is a match in the whole text. */
  lemma UrlInSlice(t: string, a: nat, b: nat, j: nat)
    requires a <= b <= |t| && UrlStartsAt(t[a..b], j)
    ensures UrlStartsAt(t, a + j)
  {
    var s := t[a..b];
    assert forall k :: j <= k < |s| ==> s[k] == t[a + k];
    assert HttpsAt(s, j) ==> HttpsAt(t, a + j);
    assert HttpAt(s, j) ==> HttpAt(t, a + j) && !HttpsAt(t, a + j);
  }

  /** The match starting at `i` is a link, and the pattern matches it. */
  lemma MatchIsLink(t: string, i: nat)
    requires UrlStartsAt(t, i)
    ensures IsLink(t[i..UrlEnd(t, i)]) && ContainsUrl(t[i..UrlEnd(t, i)])
  {
    var n := SchemeLength(t, i);
    var s := t[i..UrlEnd(t, i)];
    assert forall k :: 0 <= k < |s| ==> s[k] == t[i + k];
    assert HttpsAt(t, i) ==> HttpsAt(s, 0);
    assert HttpAt(t, i) ==> HttpAt(s, 0) && !HttpsAt(s, 0);
    assert SchemeLength(s, 0) == n;
    assert UrlStartsAt(s, 0);
  }

  /** Odd-numbered pieces are links the pattern matches; the others hold no match. */
  predicate PiecesAlternate(parts: seq<string>) {
    forall k :: 0 <= k < |parts| ==>
      (k % 2 == 1 ==> IsLink(parts[k]) && ContainsUrl(parts[k])) && (k % 2 == 0 ==> !ContainsUrl(parts[k]))
  }

  lemma PiecesAlternateCons(plain: string, link: string, rest: seq<string>)
    requires !ContainsUrl(plain) && IsLink(link) && ContainsUrl(link) && PiecesAlternate(rest)
    ensures PiecesAlternate([plain, link] + rest)
  {
    var parts := [plain, link] + rest;
    forall k | 2 <= k < |parts| ensures parts[k] == rest[k - 2] {
    }
  }

  lemma {:induction false} SplitOnUrlsConcat(t: string, p: nat, q: nat)
    requires p <= q <= |t|
    ensures Concat(SplitOnUrls(t, p, q)) == t[p..]
    decreases |t| - q
  {
    var parts := SplitOnUrls(t, p, q);
    if q == |t| {
      assert parts[1..] == [];
    } else if UrlStartsAt(t, q) {
      var e := UrlEnd(t, q);
      var rest := SplitOnUrls(t, e, e);
      SplitOnUrlsConcat(t, e, e);
      assert parts == [t[p..q], t[q..e]] + rest;
      assert parts[1..] == [t[q..e]] + rest && parts[2..] == rest;
      calc {
        Concat(parts);
        t[p..q] + Concat(parts[1..]);
        t[p..q] + (t[q..e] + Concat(rest));
        t[p..q] + (t[q..e] + t[e..]);
        { assert t[p..] == t[p..q] + (t[q..e] + t[e..]); }
        t[p..];
      }
    } else {
      SplitOnUrlsConcat(t, p, q + 1);
    }
  }

  /** The scan from `q`, with no match between `p` and `q`, yields alternating pieces. */
  lemma {:induction false} SplitOnUrlsAlternate(t: string, p: nat, q: nat)
    requires p <= q <= |t|
    requires forall i :: p <= i < q ==> !UrlStartsAt(t, i)
    ensures PiecesAlternate(SplitOnUrls(t, p, q))
    decreases |t| - q
  {
    if q == |t| {
      PlainHasNoUrl(t, p, |t|);
      assert t[p..|t|] == t[p..];
    } else if UrlStartsAt(t, q) {
      var e := UrlEnd(t, q);
      SplitOnUrlsAlternate(t, e, e);
      PlainHasNoUrl(t, p, q);
      MatchIsLink(t, q);
      PiecesAlternateCons(t[p..q], t[q..e], SplitOnUrls(t, e, e));
    } else {
      SplitOnUrlsAlternate(t, p, q + 1);
    }
  }

  /** A stretch of text with no match starting in it holds no match of its own. */
  lemma PlainHasNoUrl(t: string, a: nat, b: nat)
    requires a <= b <= |t|
    requires forall i :: a <= i < b ==> !UrlStartsAt(t, i)
    ensures !ContainsUrl(t[a..b])
  {
    forall j | 0 <= j < b - a && UrlStartsAt(t[a..b], j) ensures false {
      UrlInSlice(t, a, b, j);
    }
  }

  /** One rendered piece of a notice's text. */
  datatype Fragment = Plain(text: string) | Link(href: string)

  function FragmentText(f: Fragment): string {
    match f
    case Plain(s) => s
    case Link(s) => s
  }

  /** `renderContentWithLinks(text)`: each piece becomes a link when it matches the pattern. */
  function RenderContent(t: string): (r: seq<Fragment>)
    ensures |r| == |SplitContent(t)|
  {
    Map(SplitContent(t), (s: string) => if ContainsUrl(s) then Link(s) else Plain(s))
  }

  /** The rendered text reads as the original: the pieces concatenate to it; links and plain
      runs alternate, starting and ending with a plain run; and every link is an `http://` or
      `https://` address with something after the scheme and no white space in it. */
  lemma RenderedContent(t: string)
    ensures Concat(Map(RenderContent(t), FragmentText)) == t
    ensures |RenderContent(t)| % 2 == 1
    ensures forall k :: 0 <= k < |RenderContent(t)| ==> (RenderContent(t)[k].Link? <==> k % 2 == 1)
    ensures forall k :: 0 <= k < |RenderContent(t)| && RenderContent(t)[k].Link? ==> IsLink(RenderContent(t)[k].href)
  {
    var parts := SplitContent(t);
    SplitOnUrlsConcat(t, 0, 0);
    SplitOnUrlsAlternate(t, 0, 0);
    var r := RenderContent(t);
    assert Map(r, FragmentText) == parts;
  }

  // ---------------------------------------------------------------------------------------
  // Tags and attachments

  datatype Tone = Red | Purple | School

  /** The colour of a tag chip. */
  function TagTone(tag: string): (tone: Tone)
    ensures tone == Red <==> tag == "Urgente"
    ensures tone == Purple <==> tag == "Horário"
  {
    if tag == "Urgente" then Red else if tag == "Horário" then Purple else School
  }

  /** What the attachment section shows. */
  datatype AttachmentView = NoAttachment | Image(src: string) | FileLink(href: string, caption: string)

  /** Nothing without an attachment url; an image for type 'image'; otherwise a link captioned
      with the attachment type, or 'Documento' without one. */
  function Attachment(a: Announcement): (v: AttachmentView)
    ensures v == NoAttachment <==> !Truthy(a.attachmentUrl)
    ensures v.Image? <==> Truthy(a.attachmentUrl) && a.attachmentType == Some("image")
    ensures v.Image? ==> v.src == a.attachmentUrl.value
    ensures v.FileLink? ==>
      v.href == a.attachmentUrl.value &&
      v.caption == (if Truthy(a.attachmentType) then a.attachmentType.value else "Documento")
  {
    if !Truthy(a.attachmentUrl) then NoAttachment
    else if a.attachmentType == Some("image") then Image(a.attachmentUrl.value)
    else FileLink(a.attachmentUrl.value, OptOrElse(a.attachmentType, "Documento"))
  }
}

=== FILE: ordering.dfy ===
/** `Array.prototype.sort` with a comparator. Every comparator in the portal orders by a
    pair of integers (a rank, then a tie-breaker), so the sort is modelled as a stable
    insertion sort by such a key; ECMAScript requires `sort` to be stable, and the stable
    sorted permutation is unique (`StableSortIsUnique`), so this is the order the page shows
    whatever algorithm the engine uses. */
module Ordering {

  type Key = (int, int)

  /** Lexicographic order on keys: the order a comparator returning `a.0 - b.0`, and on a
      tie `a.1 - b.1`, sorts by. */
  predicate KeyLe(a: Key, b: Key) {
    a.0 < b.0 || (a.0 == b.0 && a.1 <= b.1)
  }

  predicate SortedBy<T>(s: seq<T>, key: T -> Key) {
    forall i, j :: 0 <= i < j < |s| ==> KeyLe(key(s[i]), key(s[j]))
  }

  /** Inserts `x` before the first element whose key is not smaller than its own. */
  function Insert<T>(x: T, s: seq<T>, key: T -> Key): (r: seq<T>)
    ensures |r| == |s| + 1
    ensures multiset(r) == multiset(s) + multiset{x}
    ensures SortedBy(s, key) ==> SortedBy(r, key)
    decreases |s|
  {
    if |s| == 0 || KeyLe(key(x), key(s[0])) then [x] + s
    else
      var rest := Insert(x, s[1..], key);
      assert s == [s[0]] + s[1..];
      SortedInsertHead(s[0], x, s[1..], rest, key);
      [s[0]] + rest
  }

  /** The step of `Insert` that puts the head back in front: the head precedes `x` and
      everything after it, so the result stays sorted. */
  lemma SortedInsertHead<T>(h: T, x: T, tail: seq<T>, rest: seq<T>, key: T -> Key)
    requires !KeyLe(key(x), key(h))
    requires multiset(rest) == multiset(tail) + multiset{x}
    requires SortedBy([h] + tail, key) ==> SortedBy(tail, key) && SortedBy(rest, key)
    ensures SortedBy([h] + tail, key) ==> SortedBy([h] + rest, key)
  {
    if SortedBy([h] + tail, key) {
      forall j | 0 <= j < |rest|
        ensures KeyLe(key(h), key(rest[j]))
      {
        assert rest[j] in multiset(rest);
        if rest[j] != x {
          assert multiset(tail)[rest[j]] == multiset(rest)[rest[j]] > 0;
          assert rest[j] in tail;
          var m :| 0 <= m < |tail| && tail[m] == rest[j];
          assert ([h] + tail)[0] == h && ([h] + tail)[m + 1] == tail[m];
        }
      }
      var r := [h] + rest;
      forall i, j | 0 <= i < j < |r|
        ensures KeyLe(key(r[i]), key(r[j]))
      {
        if i > 0 {
          assert r[i] == rest[i - 1] && r[j] == rest[j - 1];
        }
      }
    }
  }

  /** The sorted permutation, ties kept in input order. */
  function SortBy<T>(xs: seq<T>, key: T -> Key): (r: seq<T>)
    ensures |r| == |xs|
    ensures multiset(r) == multiset(xs)
    ensures SortedBy(r, key)
    decreases |xs|
  {
    if |xs| == 0 then []
    else
      assert xs == [xs[0]] + xs[1..];
      Insert(xs[0], SortBy(xs[1..], key), key)
  }

  /** The elements whose key is `k`, in order. */
  function WithKey<T>(s: seq<T>, key: T -> Key, k: Key): seq<T>
    decreases |s|
  {
    if |s| == 0 then [] else (if key(s[0]) == k then [s[0]] else []) + WithKey(s[1..], key, k)
  }

  lemma {:induction false} InsertWithKey<T>(x: T, s: seq<T>, key: T -> Key, k: Key)
    ensures WithKey(Insert(x, s, key), key, k) == (if key(x) == k then [x] else []) + WithKey(s, key, k)
    decreases |s|
  {
    var r := Insert(x, s, key);
    if |s| == 0 || KeyLe(key(x), key(s[0])) {
      assert r[0] == x && r[1..] == s;
    } else {
      var rest := Insert(x, s[1..], key);
      assert r[0] == s[0] && r[1..] == rest;
      InsertWithKey(x, s[1..], key, k);
    }
  }

  /** Stability: for every key, the elements with that key keep their relative order. */
  lemma {:induction false} SortIsStable<T>(xs: seq<T>, key: T -> Key, k: Key)
    ensures WithKey(SortBy(xs, key), key, k) == WithKey(xs, key, k)
    decreases |xs|
  {
    if |xs| > 0 {
      SortIsStable(xs[1..], key, k);
      InsertWithKey(xs[0], SortBy(xs[1..], key), key, k);
    }
  }

  lemma {:induction false} WithKeyMembers<T>(s: seq<T>, key: T -> Key, k: Key, x: T)
    ensures x in WithKey(s, key, k) <==> x in s && key(x) == k
    decreases |s|
  {
    if |s| > 0 {
      WithKeyMembers(s[1..], key, k, x);
      assert s == [s[0]] + s[1..];
    }
  }

  /** In a sorted sequence whose head has key `key(s[0])`, that head is the first of its key. */
  lemma WithKeyOfSortedHead<T>(s: seq<T>, key: T -> Key)
    requires |s| > 0
    ensures WithKey(s, key, key(s[0])) == [s[0]] + WithKey(s[1..], key, key(s[0]))
  {
  }

  lemma WithKeyOtherHead<T>(s: seq<T>, key: T -> Key, k: Key)
    requires |s| > 0 && key(s[0]) != k
    ensures WithKey(s, key, k) == WithKey(s[1..], key, k)
  {
  }

  /** Any sorted arrangement that keeps every key's elements in input order is the one
      `SortBy` computes: a stable sort has exactly one possible result. */
  lemma {:induction false} StableSortIsUnique<T>(r: seq<T>, q: seq<T>, key: T -> Key)
    requires SortedBy(r, key) && SortedBy(q, key)
    requires forall k :: WithKey(r, key, k) == WithKey(q, key, k)
    ensures r == q
    decreases |r|
  {
    if |r| > 0 {
      var kr := key(r[0]);
      WithKeyMembers(r, key, kr, r[0]);
      WithKeyMembers(q, key, kr, r[0]);
      var m :| 0 <= m < |q| && q[m] == r[0];
      assert |q| > 0;
      var kq := key(q[0]);
      WithKeyMembers(q, key, kq, q[0]);
      WithKeyMembers(r, key, kq, q[0]);
      var n :| 0 <= n < |r| && r[n] == q[0];
      assert m == 0 || KeyLe(kq, kr);
      assert n == 0 || KeyLe(kr, kq);
      assert kr == kq;
      WithKeyOfSortedHead(r, key);
      WithKeyOfSortedHead(q, key);
      assert WithKey(r, key, kr) == WithKey(q, key, kr);
      assert r[0] == WithKey(r, key, kr)[0] == WithKey(q, key, kr)[0] == q[0];
      forall k
        ensures WithKey(r[1..], key, k) == WithKey(q[1..], key, k)
      {
        if k == kr {
          assert WithKey(r, key, k) == WithKey(q, key, k);
          assert WithKey(r[1..], key, k) == WithKey(r, key, k)[1..];
          assert WithKey(q[1..], key, k) == WithKey(q, key, k)[1..];
        } else {
          WithKeyOtherHead(r, key, k);
          WithKeyOtherHead(q, key, k);
          assert WithKey(r, key, k) == WithKey(q, key, k);
        }
      }
      StableSortIsUnique(r[1..], q[1..], key);
      assert r == [r[0]] + r[1..] && q == [q[0]] + q[1..];
    }
  }

  /** So a result that is sorted and stable with respect to the input is `SortBy(xs)`. */
  lemma SortByIsTheStableSort<T>(xs: seq<T>, r: seq<T>, key: T -> Key)
    requires SortedBy(r, key)
    requires forall k :: WithKey(r, key, k) == WithKey(xs, key, k)
    ensures r == SortBy(xs, key)
  {
    forall k ensures WithKey(r, key, k) == WithKey(SortBy(xs, key), key, k) {
      SortIsStable(xs, key, k);
    }
    StableSortIsUnique(r, SortBy(xs, key), key);
  }
}

=== FILE: password_gate.dfy ===
/** The password gate in front of the restricted pages: a form that asks for a password and,
    once it is given, shows the protected page for the rest of the browser session, through a
    "true" recorded under the gate's key in the session storage. */
module PasswordGate {
  import opened Wrappers

  /** The gate's three pieces of component state. */
  datatype GateState = GateState(password: string, isAuthenticated: bool, error: bool)

  /** The state when the gate first renders. */
  const Initial := GateState("", false, false)

  /** The value recorded in the session storage for an opened gate. */
  const Opened := "true"

  /** The session storage: keys to values. */
  type Store = map<string, string>

  /** What can happen to a gate: the mount effect runs, the password field changes, the form
      is submitted, or the timer set by a wrong password fires. */
  datatype Event = Mount | Type(text: string) | Submit | ErrorTimeout

  /** One transition of the gate whose password is `correct` and whose storage key is `key`.
      Authentication is never lost; the storage changes at most at `key`, to "true", and only
      on the submit of the correct password, which always opens the gate. */
  function Step(correct: string, key: string, s: GateState, store: Store, e: Event): (r: (GateState, Store))
    ensures s.isAuthenticated ==> r.0.isAuthenticated
    ensures r.1 == store || r.1 == store[key := Opened]
    ensures r.1 != store ==> e == Submit && s.password == correct
    ensures e == Submit && s.password == correct ==> r.0.isAuthenticated && !r.0.error && r.1 == store[key := Opened]
    ensures e == Submit && s.password != correct ==> r.0.error && r.0.password == "" && r.0.isAuthenticated == s.isAuthenticated
    ensures !s.isAuthenticated && r.0.isAuthenticated ==>
      (e == Submit && s.password == correct) || (e == Mount && key in store && store[key] == Opened)
  {
    match e
    case Mount =>
      (if key in store && store[key] == Opened then s.(isAuthenticated := true) else s, store)
    case Type(text) =>
      (s.(password := text), store)
    case Submit =>
      if s.password == correct then (s.(isAuthenticated := true, error := false), store[key := Opened])
      else (s.(password := "", error := true), store)
    case ErrorTimeout =>
      (s.(error := false), store)
  }

  /** The state and the storage after `events`, starting from the initial state and `store`. */
  function Run(correct: string, key: string, store: Store, events: seq<Event>): (r: (GateState, Store))
    ensures !r.0.isAuthenticated ==> r.1 == store
    decreases |events|
  {
    if |events| == 0 then (Initial, store)
    else
      var (s, st) := Run(correct, key, store, events[..|events| - 1]);
      Step(correct, key, s, st, events[|events| - 1])
  }

  lemma RunSnoc(correct: string, key: string, store: Store, events: seq<Event>, e: Event)
    ensures Run(correct, key, store, events + [e]) ==
      Step(correct, key, Run(correct, key, store, events).0, Run(correct, key, store, events).1, e)
  {
    assert (events + [e])[..|events|] == events;
  }

  /** Once the gate is open it stays open, whatever happens next. */
  lemma {:induction false} AuthenticationIsMonotone(correct: string, key: string, store: Store, events: seq<Event>, n: nat)
    requires n <= |events|
    requires Run(correct, key, store, events[..n]).0.isAuthenticated
    ensures Run(correct, key, store, events).0.isAuthenticated
    decreases |events| - n
  {
    if n < |events| {
      RunSnoc(correct, key, store, events[..n], events[n]);
      assert events[..n] + [events[n]] == events[..n + 1];
      AuthenticationIsMonotone(correct, key, store, events, n + 1);
    } else {
      assert events[..n] == events;
    }
  }

  /** The gate only ever writes "true" under its own key: every other entry of the storage is
      left as it was. */
  lemma {:induction false} StorageChangesOnlyAtKey(correct: string, key: string, store: Store, events: seq<Event>)
    ensures Run(correct, key, store, events).1 == store || Run(correct, key, store, events).1 == store[key := Opened]
    decreases |events|
  {
    if |events| > 0 {
      var init := events[..|events| - 1];
      StorageChangesOnlyAtKey(correct, key, store, init);
      RunSnoc(correct, key, store, init, events[|events| - 1]);
      assert init + [events[|events| - 1]] == events;
    }
  }

  /** An open gate has "true" under its key, so a gate mounted again later in the same
      session opens at once. */
  lemma {:induction false} OpenGateIsRecorded(correct: string, key: string, store: Store, events: seq<Event>)
    requires Run(correct, key, store, events).0.isAuthenticated
    ensures key in Run(correct, key, store, events).1 && Run(correct, key, store, events).1[key] == Opened
    ensures Run(correct, key, Run(correct, key, store, events).1, [Mount]).0.isAuthenticated
    decreases |events|
  {
    var init := events[..|events| - 1];
    var e := events[|events| - 1];
    RunSnoc(correct, key, store, init, e);
    assert init + [e] == events;
    if Run(correct, key, store, init).0.isAuthenticated {
      OpenGateIsRecorded(correct, key, store, init);
    }
    var after := Run(correct, key, store, events).1;
    RunSnoc(correct, key, after, [], Mount);
  }

  /** A correct submit happened somewhere in `events`. */
  ghost predicate CorrectSubmitIn(correct: string, key: string, store: Store, events: seq<Event>) {
    exists i :: 0 <= i < |events| && events[i] == Submit && Run(correct, key, store, events[..i]).0.password == correct
  }

  lemma CorrectSubmitInPrefix(correct: string, key: string, store: Store, events: seq<Event>, e: Event)
    requires CorrectSubmitIn(correct, key, store, events)
    ensures CorrectSubmitIn(correct, key, store, events + [e])
  {
    var i :| 0 <= i < |events| && events[i] == Submit && Run(correct, key, store, events[..i]).0.password == correct;
    assert (events + [e])[..i] == events[..i];
    assert (events + [e])[i] == Submit;
  }

  /** In a session where the gate was not already open, it opens only after the correct
      password has been submitted, and only then is "true" written under its key. */
  lemma {:induction false} OpensOnlyWithThePassword(correct: string, key: string, store: Store, events: seq<Event>)
    requires !(key in store && store[key] == Opened)
    ensures Run(correct, key, store, events).0.isAuthenticated ==> CorrectSubmitIn(correct, key, store, events)
    ensures key in Run(correct, key, store, events).1 && Run(correct, key, store, events).1[key] == Opened ==>
      CorrectSubmitIn(correct, key, store, events)
    decreases |events|
  {
    if |events| > 0 {
      var init := events[..|events| - 1];
      var e := events[|events| - 1];
      assert init + [e] == events;
      OpensOnlyWithThePassword(correct, key, store, init);
      RunSnoc(correct, key, store, init, e);
      var (s, st) := Run(correct, key, store, init);
      if CorrectSubmitIn(correct, key, store, init) {
        CorrectSubmitInPrefix(correct, key, store, init, e);
      } else if e == Submit && s.password == correct {
        assert events[|init|] == Submit && events[..|init|] == init;
      }
    }
  }

  /** What the gate renders: the protected page, or the password form with or without the
      error message. */
  datatype View = Protected | PasswordForm(showsError: bool)

  function Render(s: GateState): (v: View)
    ensures v == Protected <==> s.isAuthenticated
    ensures v.PasswordForm? ==> v.showsError == s.error
  {
    if s.isAuthenticated then Protected else PasswordForm(s.error)
  }

  /** The browser's session storage. */
  class SessionStorage {
    var items: Store

    constructor (items: Store)
      ensures this.items == items
    {
      this.items := items;
    }

    /** `getItem(key)`: the value, or `null` when there is none. */
    function GetItem(key: string): (v: Option<string>)
      reads this
      ensures v.Some? <==> key in items
      ensures v.Some? ==> v.value == items[key]
    {
      if key in items then Some(items[key]) else None
    }

    /** `setItem(key, value)` */
    method SetItem(key: string, value: string)
      modifies this
      ensures items == old(items)[key := value]
    {
      items := items[key := value];
    }
  }

  /** A mounted gate. */
  class Gate {
    const correctPassword: string
    const storageKey: string
    var password: string
    var isAuthenticated: bool
    var error: bool

    function State(): GateState
      reads this
    {
      GateState(password, isAuthenticated, error)
    }

    constructor (correctPassword: string, storageKey: string)
      ensures this.correctPassword == correctPassword && this.storageKey == storageKey
      ensures State() == Initial
    {
      this.correctPassword := correctPassword;
      this.storageKey := storageKey;
      password, isAuthenticated, error := "", false, false;
    }

    /** The mount effect: opens the gate when the session storage holds "true" under its key. */
    method OnMount(storage: SessionStorage)
      modifies this
      ensures (State(), storage.items) == Step(correctPassword, storageKey, old(State()), storage.items, Mount)
      ensures isAuthenticated <==> old(isAuthenticated) || storage.GetItem(storageKey) == Some(Opened)
      ensures password == old(password) && error == old(error)
    {
      var saved := storage.GetItem(storageKey);
      if saved == Some(Opened) {
        isAuthenticated := true;
      }
    }

    /** The password field's `onChange`. */
    method OnPasswordChange(text: string)
      modifies this
      ensures forall items :: Step(correctPassword, storageKey, old(State()), items, Type(text)) == (State(), items)
      ensures password == text && isAuthenticated == old(isAuthenticated) && error == old(error)
    {
      password := text;
    }

    /** `handleSubmit`: the correct password opens the gate, clears the error and records the
        opening; a wrong one shows the error and empties the field, and changes nothing else. */
    method HandleSubmit(storage: SessionStorage)
      modifies this, storage
      ensures (State(), storage.items) == Step(correctPassword, storageKey, old(State()), old(storage.items), Submit)
      ensures old(password) == correctPassword ==>
        isAuthenticated && !error && password == old(password) && storage.items == old(storage.items)[storageKey := Opened]
      ensures old(password) != correctPassword ==>
        error && password == "" && isAuthenticated == old(isAuthenticated) && storage.items == old(storage.items)
    {
      if password == correctPassword {
        isAuthenticated := true;
        error := false;
        storage.SetItem(storageKey, Opened);
      } else {
        error := true;
        password := "";
      }
    }

    /** The timer set by a wrong password: hides the error. */
    method OnErrorTimeout()
      modifies this
      ensures forall items :: Step(correctPassword, storageKey, old(State()), items, ErrorTimeout) == (State(), items)
      ensures !error && password == old(password) && isAuthenticated == old(isAuthenticated)
    {
      error := false;
    }

    /** The protected page shows exactly when the gate is open. */
    function Rendered(): (v: View)
      reads this
      ensures v == Protected <==> isAuthenticated
    {
      Render(State())
    }
  }
}

=== FILE: resource_admin.dfy ===
/** The resource editor of the admin area: a form that adds or edits a link for the teachers,
    a delete confirmation, and the list of all resources, newest first. */
module ResourceAdmin {
  import opened Wrappers
  import opened Text
  import opened Collections
  import opened Ordering
  import opened Domain

  /** The form's fields. */
  datatype Form = Form(title: string, url: string, desc: string, cat: string, active: bool)

  /** The fields after `resetForm`. */
  const DefaultForm := Form("", "", "", "Outros", true)

  /** The category a reset resource form shows is one its category select offers. */
  lemma DefaultCategoryIsOffered()
    ensures DefaultForm.cat in Categories
  {
  }

  /** The fields `handleEdit` loads from a resource. */
  function FormOf(item: Resource): Form {
    Form(item.title, item.url, item.description, item.category, item.active)
  }

  /** `if (!title || !url) return;` */
  predicate CanSubmit(f: Form) {
    f.title != "" && f.url != ""
  }

  /** The resource with id `id` that `resources.find` returns. */
  function FindById(items: seq<Resource>, id: string): Option<Resource> {
    Find(items, (r: Resource) => r.id == id)
  }

  /** The payload `handleSubmit` builds at time `now`: a new resource gets `now` as its id (in
      decimal) and its date; an edited one keeps the edited id and the date of the resource
      with that id (`now` if there is none). */
  function Payload(f: Form, editingId: Option<string>, items: seq<Resource>, now: Timestamp): (p: Resource)
    ensures p.title == f.title && p.url == f.url && p.description == f.desc && p.category == f.cat && p.active == f.active
    ensures !Truthy(editingId) ==> p.id == IntToString(now) && p.date == now
    ensures Truthy(editingId) ==> p.id == editingId.value
    ensures Truthy(editingId) && FindById(items, editingId.value).None? ==> p.date == now
    ensures Truthy(editingId) && FindById(items, editingId.value).Some? ==>
      var old_ := FindById(items, editingId.value).value;
      old_ in items && old_.id == p.id && p.date == old_.date
  {
    var found := if Truthy(editingId) then FindById(items, editingId.value) else None;
    Resource(
      if Truthy(editingId) then editingId.value else IntToString(now),
      f.title,
      f.desc,
      f.url,
      f.cat,
      if !Truthy(editingId) then now else if found.Some? then found.value.date else now,
      f.active)
  }

  /** The one callback a valid submit makes: `onUpdate` while editing, `onAdd` otherwise. */
  function Submission(f: Form, editingId: Option<string>, items: seq<Resource>, now: Timestamp): Callback<Resource> {
    var p := Payload(f, editingId, items, now);
    if Truthy(editingId) then Updated(p) else Added(p)
  }

  /** Editing a resource and submitting without changes sends `onUpdate` with that very
      resource, whenever its id is non-empty and no other resource has it. */
  lemma EditThenSubmitUpdatesSameResource(items: seq<Resource>, item: Resource, now: Timestamp)
    requires item in items && item.id != ""
    requires forall r :: r in items && r.id == item.id ==> r == item
    ensures Submission(FormOf(item), Some(item.id), items, now) == Updated(item)
  {
    FindUnique(items, (r: Resource) => r.id == item.id, item);
  }

  /** Resources created at different instants get different ids. */
  lemma NewResourcesGetDistinctIds(f: Form, g: Form, items: seq<Resource>, now1: Timestamp, now2: Timestamp)
    requires now1 != now2
    ensures Payload(f, None, items, now1).id != Payload(g, None, items, now2).id
  {
    if IntToString(now1) == IntToString(now2) {
      IntToStringInjective(now1, now2);
    }
  }

  function DateKey(r: Resource): Key {
    (-r.date, 0)
  }

  /** The comparator of the list, as written: `b.date - a.date`. */
  function CompareByDate(a: Resource, b: Resource): int {
    b.date - a.date
  }

  /** The comparator puts `a` first exactly when `a`'s key is the smaller, and calls two
      resources equal exactly when their keys are equal. */
  lemma CompareByDateAgreesWithKey(a: Resource, b: Resource)
    ensures CompareByDate(a, b) < 0 <==> KeyLe(DateKey(a), DateKey(b)) && DateKey(a) != DateKey(b)
    ensures CompareByDate(a, b) == 0 <==> DateKey(a) == DateKey(b)
  {
  }

  /** `[...resources].sort(...)`: every resource once, newest first, equal dates in their
      original order. */
  function AdminList(items: seq<Resource>): (r: seq<Resource>)
    ensures multiset(r) == multiset(items)
    ensures forall i, j :: 0 <= i < j < |r| ==> r[i].date >= r[j].date
    ensures forall k :: WithKey(r, DateKey, k) == WithKey(items, DateKey, k)
  {
    var r := SortBy(items, DateKey);
    forall i, j | 0 <= i < j < |r| ensures r[i].date >= r[j].date {
      assert KeyLe(DateKey(r[i]), DateKey(r[j]));
    }
    forall k ensures WithKey(r, DateKey, k) == WithKey(items, DateKey, k) {
      SortIsStable(items, DateKey, k);
    }
    r
  }

  /** The editor's state. `calls` records, in order, the callbacks it has made. */
  class ResourceManager {
    var editingId: Option<string>
    var deleteId: Option<string>
    var showForm: bool
    var title: string
    var url: string
    var desc: string
    var cat: string
    var active: bool
    ghost var calls: seq<Callback<Resource>>

    function Fields(): Form
      reads this
    {
      Form(title, url, desc, cat, active)
    }

    constructor ()
      ensures Fields() == DefaultForm && editingId == None && deleteId == None && !showForm
      ensures calls == []
    {
      editingId, deleteId, showForm := None, None, false;
      title, url, desc, cat, active := "", "", "", "Outros", true;
      calls := [];
    }

    /** `resetForm`: default fields, nothing being edited, form closed. */
    method ResetForm()
      modifies this
      ensures Fields() == DefaultForm && editingId == None && !showForm
      ensures deleteId == old(deleteId) && unchanged(`calls)
    {
      title, url, desc := "", "", "";
      cat := "Outros";
      active := true;
      editingId := None;
      showForm := false;
    }

    /** `handleEdit(item)`: load the resource into the form and open it. */
    method HandleEdit(item: Resource)
      modifies this
      ensures Fields() == FormOf(item) && editingId == Some(item.id) && showForm
      ensures deleteId == old(deleteId) && unchanged(`calls)
    {
      editingId := Some(item.id);
      title := item.title;
      url := item.url;
      desc := item.description;
      cat := item.category;
      active := item.active;
      showForm := true;
    }

    /** `handleSubmit` at time `now`: with an empty title or url nothing happens; otherwise
        exactly one callback is made, with the payload, and the form is reset. */
    method HandleSubmit(resources: seq<Resource>, now: Timestamp)
      modifies this
      ensures !CanSubmit(old(Fields())) ==> unchanged(this)
      ensures CanSubmit(old(Fields())) ==>
        calls == old(calls) + [Submission(old(Fields()), old(editingId), resources, now)] &&
        Fields() == DefaultForm && editingId == None && !showForm && deleteId == old(deleteId)
    {
      if title == "" || url == "" {
        return;
      }
      var payload := Payload(Fields(), editingId, resources, now);
      if Truthy(editingId) {
        calls := calls + [Updated(payload)];
      } else {
        calls := calls + [Added(payload)];
      }
      ResetForm();
    }

    /** The "active" switch: flips the field and nothing else. */
    method ToggleActive()
      modifies this
      ensures active == !old(active)
      ensures Fields() == old(Fields()).(active := active)
      ensures editingId == old(editingId) && deleteId == old(deleteId) && showForm == old(showForm) && unchanged(`calls)
    {
      active := !active;
    }

    /** The "new resource" button: opens the form with whatever it holds. */
    method OpenForm()
      modifies this
      ensures showForm
      ensures Fields() == old(Fields()) && editingId == old(editingId) && deleteId == old(deleteId) && unchanged(`calls)
    {
      showForm := true;
    }

    /** The delete button of a row: asks for confirmation. */
    method RequestDelete(id: string)
      modifies this
      ensures deleteId == Some(id)
      ensures Fields() == old(Fields()) && editingId == old(editingId) && showForm == old(showForm) && unchanged(`calls)
    {
      deleteId := Some(id);
    }

    /** "Sim, Excluir" (shown only while a deletion is pending): `onDelete` once with the
        pending id, then nothing pending. */
    method ConfirmDelete()
      requires Truthy(deleteId)
      modifies this
      ensures calls == old(calls) + [Deleted(old(deleteId).value)] && deleteId == None
      ensures Fields() == old(Fields()) && editingId == old(editingId) && showForm == old(showForm)
    {
      calls := calls + [Deleted(deleteId.value)];
      deleteId := None;
    }

    /** "Cancelar": nothing pending, and no callback. */
    method CancelDelete()
      modifies this
      ensures deleteId == None && unchanged(`calls)
      ensures Fields() == old(Fields()) && editingId == old(editingId) && showForm == old(showForm)
    {
      deleteId := None;
    }
  }
}

=== FILE: sheet_store.dfy ===
/** The Apps Script back end: each content kind lives in a sheet whose first row holds the
    column headers and whose other rows hold one record each. `getSheetData` reads a sheet
    into header-keyed records, `createRow`/`updateRow`/`deleteRow` write to it, and `doPost`
    dispatches an action name to one of the writers. */
module SheetStore {
  import opened Wrappers
  import opened Text
  import opened Collections

  /** A cell, or a field of a request record. `Undefined` is JavaScript's `undefined` (a
      field the record lacks, or a column past the end of a row); `StrList` is an array of
      strings, which is how `tags` travels in a request and how it is read back. */
  datatype Value = Undefined | Str(s: string) | Num(n: int) | Bool(b: bool) | StrList(items: seq<string>)

  type Row = seq<Value>

  /** A JavaScript object with string keys. */
  type Record = map<string, Value>

  /** The `{result, message}` object `doPost` answers with. */
  datatype Reply = Success | Error(message: string)

  /** How a writer call ends: it returns a reply, or it throws (and `doPost` catches). */
  datatype Completion = Normal(reply: Reply) | Thrown(message: string)

  const SheetNotFound := "Sheet não encontrada"
  const IdNotFound := "ID não encontrado"
  const ActionNotFound := "Ação não encontrada"

  /** The text of the `TypeError` raised by reading property `prop` of `undefined`. */
  function TypeErrorReading(prop: string): string {
    "TypeError: Cannot read properties of undefined (reading '" + prop + "')"
  }

  /** JavaScript's `String(v)`; it is also how a header becomes a property key. */
  function CellToString(v: Value): (r: string)
    ensures v.Str? ==> r == v.s
    ensures v.Num? ==> |r| >= 1 && (r[0] == '-' <==> v.n < 0)
  {
    match v
    case Undefined => "undefined"
    case Str(s) => s
    case Num(n) => IntToString(n)
    case Bool(b) => if b then "true" else "false"
    case StrList(items) => Join(items, ",")
  }

  /** `data[k]` */
  function Lookup(data: Record, k: string): Value {
    if k in data then data[k] else Undefined
  }

  /** `row[i]`, which is `undefined` outside the row (in particular for `i == -1`). */
  function CellAt(row: Row, i: int): Value {
    if 0 <= i < |row| then row[i] else Undefined
  }

  /** `row.indexOf(v)`: the first position holding `v`, or -1. */
  function IndexOf(row: Row, v: Value): (i: int)
    ensures -1 <= i < |row|
    ensures i >= 0 ==> row[i] == v && v !in row[..i]
    ensures i == -1 <==> v !in row
    decreases |row|
  {
    if |row| == 0 then -1
    else if row[0] == v then 0
    else
      var j := IndexOf(row[1..], v);
      assert row == [row[0]] + row[1..];
      if j == -1 then -1 else j + 1
  }

  predicate IsTagsHeader(h: Value) {
    h == Str("tags")
  }

  /** A sheet as `getDataRange().getValues()` yields it: at least the header row, at least one
      column, and every row as wide as the header. */
  predicate WellShaped(rows: seq<Row>) {
    |rows| >= 1 && |rows[0]| >= 1 && forall r :: r in rows ==> |r| == |rows[0]|
  }

  // ---------------------------------------------------------------------------------------
  // Reading

  predicate IsNonEmpty(s: string) {
    s != ""
  }

  /** `val.split(',').map(t => t.trim()).filter(Boolean)` */
  function SplitTags(s: string): (tags: seq<string>)
    ensures forall t :: t in tags ==> t != "" && IsTrimmed(t)
  {
    var trimmed := Map(SplitOn(s, ','), Trim);
    forall t | t in trimmed ensures IsTrimmed(t) {
      var i :| 0 <= i < |trimmed| && trimmed[i] == t;
    }
    Filter(trimmed, IsNonEmpty)
  }

  /** The value a record holds for a cell under header `h`: a string under `tags` is split
      into its trimmed, non-empty segments, anything else passes through. */
  function ReadCell(h: Value, v: Value): (r: Value)
    ensures !(IsTagsHeader(h) && v.Str?) ==> r == v
    ensures IsTagsHeader(h) && v.Str? ==> r.StrList? && forall t :: t in r.items ==> t != "" && IsTrimmed(t)
  {
    if IsTagsHeader(h) && v.Str? then StrList(SplitTags(v.s)) else v
  }

  /** The record built for one row: the headers' `forEach`, assigning `obj[h]` in column order. */
  function RowToRecord(headers: Row, row: Row): (obj: Record)
    ensures forall h :: h in headers ==> CellToString(h) in obj
    decreases |headers|
  {
    if |headers| == 0 then map[]
    else
      var n := |headers| - 1;
      var prev := RowToRecord(headers[..n], row);
      assert headers == headers[..n] + [headers[n]];
      prev[CellToString(headers[n]) := ReadCell(headers[n], CellAt(row, n))]
  }

  /** The rows below the header, each as a record. */
  function SheetRecords(rows: seq<Row>): (records: seq<Record>)
    ensures |records| == if |rows| == 0 then 0 else |rows| - 1
    ensures forall i :: 0 <= i < |records| ==> records[i] == RowToRecord(rows[0], rows[i + 1])
  {
    if |rows| == 0 then []
    else seq(|rows| - 1, i requires 0 <= i < |rows| - 1 => RowToRecord(rows[0], rows[i + 1]))
  }

  // ---------------------------------------------------------------------------------------
  // Writing

  /** The cell `createRow` writes for value `v` under header `h`: a `tags` array is joined
      with `", "`, and `undefined` becomes the empty string. */
  function WriteCell(h: Value, v: Value): (c: Value)
    ensures c != Undefined
    ensures v == Undefined ==> c == Str("")
  {
    var w := if IsTagsHeader(h) && v.StrList? then Str(Join(v.items, ", ")) else v;
    if w == Undefined then Str("") else w
  }

  /** The cell `updateRow` writes: as `WriteCell`, except that `undefined` keeps `current`. */
  function MergeCell(h: Value, v: Value, current: Value): (c: Value)
    ensures v == Undefined ==> c == current
    ensures v != Undefined ==> c == WriteCell(h, v)
  {
    var w := if IsTagsHeader(h) && v.StrList? then Str(Join(v.items, ", ")) else v;
    if w == Undefined then current else w
  }

  /** The row `createRow` appends: one cell per header, in header order. */
  function NewRow(headers: Row, data: Record): (row: Row)
    ensures |row| == |headers|
    ensures forall j :: 0 <= j < |headers| ==> row[j] == WriteCell(headers[j], Lookup(data, CellToString(headers[j])))
  {
    seq(|headers|, j requires 0 <= j < |headers| => WriteCell(headers[j], Lookup(data, CellToString(headers[j]))))
  }

  /** The row `updateRow` writes over `current`; a field the data lacks keeps the cell found
      in the first column carrying the same header. */
  function MergedRow(headers: Row, data: Record, current: Row): (row: Row)
    ensures |row| == |headers|
    ensures forall j :: 0 <= j < |headers| ==>
      row[j] == MergeCell(headers[j], Lookup(data, CellToString(headers[j])), CellAt(current, IndexOf(headers, headers[j])))
  {
    seq(|headers|, j requires 0 <= j < |headers| =>
      MergeCell(headers[j], Lookup(data, CellToString(headers[j])), CellAt(current, IndexOf(headers, headers[j]))))
  }

  /** Whether a row's id cell, as a string, equals `id`. */
  predicate RowHasId(row: Row, idIndex: int, id: string) {
    CellToString(CellAt(row, idIndex)) == id
  }

  /** The first row at or after `from` whose id cell matches. */
  function FirstRowWithId(rows: seq<Row>, idIndex: int, id: string, from: nat): (r: Option<nat>)
    ensures r.Some? ==> from <= r.value < |rows| && RowHasId(rows[r.value], idIndex, id)
    ensures r.Some? ==> forall j :: from <= j < r.value ==> !RowHasId(rows[j], idIndex, id)
    ensures r.None? ==> forall j :: from <= j < |rows| ==> !RowHasId(rows[j], idIndex, id)
    decreases |rows| - from
  {
    if from >= |rows| then None
    else if RowHasId(rows[from], idIndex, id) then Some(from)
    else FirstRowWithId(rows, idIndex, id, from + 1)
  }

  /** `headers.indexOf('id')` */
  function IdColumn(rows: seq<Row>): int
    requires |rows| >= 1
  {
    IndexOf(rows[0], Str("id"))
  }

  /** The data row (never the header) that `updateRow`/`deleteRow` act on. */
  function MatchingRow(rows: seq<Row>, id: string): (r: Option<nat>)
    requires |rows| >= 1
    ensures r.Some? ==> 1 <= r.value < |rows| && RowHasId(rows[r.value], IdColumn(rows), id)
    ensures r.Some? ==> forall j :: 1 <= j < r.value ==> !RowHasId(rows[j], IdColumn(rows), id)
    ensures r.None? <==> forall j :: 1 <= j < |rows| ==> !RowHasId(rows[j], IdColumn(rows), id)
  {
    FirstRowWithId(rows, IdColumn(rows), id, 1)
  }

  /** What `createRow` does to an existing sheet: the reply and the rows afterwards. Reading
      `data[h]` of an absent `data` throws at the first header. */
  function CreateEffect(rows: seq<Row>, data: Option<Record>): (result: (Completion, seq<Row>))
    requires |rows| >= 1 && |rows[0]| >= 1
    ensures WellShaped(rows) ==> WellShaped(result.1)
  {
    if data.None? then (Thrown(TypeErrorReading(CellToString(rows[0][0]))), rows)
    else (Normal(Success), rows + [NewRow(rows[0], data.value)])
  }

  /** What `updateRow` does to an existing sheet. `String(data.id)` is evaluated once per data
      row, so an absent `data` throws only when there is a data row. */
  function UpdateEffect(rows: seq<Row>, data: Option<Record>): (result: (Completion, seq<Row>))
    requires |rows| >= 1
    ensures WellShaped(rows) ==> WellShaped(result.1)
  {
    if |rows| == 1 then (Normal(Error(IdNotFound)), rows)
    else if data.None? then (Thrown(TypeErrorReading("id")), rows)
    else match MatchingRow(rows, CellToString(Lookup(data.value, "id")))
      case None => (Normal(Error(IdNotFound)), rows)
      case Some(k) => (Normal(Success), rows[k := MergedRow(rows[0], data.value, rows[k])])
  }

  /** What `deleteRow` does to an existing sheet. */
  function DeleteEffect(rows: seq<Row>, id: Value): (result: (Completion, seq<Row>))
    requires |rows| >= 1
    ensures WellShaped(rows) ==> WellShaped(result.1)
  {
    match MatchingRow(rows, CellToString(id))
    case None => (Normal(Error(IdNotFound)), rows)
    case Some(k) =>
      assert forall r :: r in rows[..k] + rows[k + 1..] ==> r in rows;
      (Normal(Success), rows[..k] + rows[k + 1..])
  }

  /** The rewrite of the matched row `k`, and the sheet keeps its shape. */
  lemma UpdateEffectAt(rows: seq<Row>, data: Record, k: nat)
    requires WellShaped(rows) && MatchingRow(rows, CellToString(Lookup(data, "id"))) == Some(k)
    ensures k < |rows|
    ensures UpdateEffect(rows, Some(data)) == (Normal(Success), rows[k := MergedRow(rows[0], data, rows[k])])
    ensures WellShaped(rows[k := MergedRow(rows[0], data, rows[k])])
  {
    var after := rows[k := MergedRow(rows[0], data, rows[k])];
    assert forall r :: r in after ==> r in rows || r == after[k];
  }

  /** The deletion of the matched row `k`, and the sheet keeps its shape. */
  lemma DeleteEffectAt(rows: seq<Row>, id: Value, k: nat)
    requires WellShaped(rows) && MatchingRow(rows, CellToString(id)) == Some(k)
    ensures k < |rows| && DeleteEffect(rows, id) == (Normal(Success), rows[..k] + rows[k + 1..])
    ensures WellShaped(rows[..k] + rows[k + 1..])
  {
  }

  /** A sheet: its data range, header row first. */
  class Sheet {
    var rows: seq<Row>

    ghost predicate Valid()
      reads this
    {
      WellShaped(rows)
    }

    constructor (headers: Row)
      requires |headers| >= 1
      ensures rows == [headers] && Valid()
    {
      rows := [headers];
    }
  }

  /** `getSheetData(sheet)`: no sheet gives no records. */
  function GetSheetData(sheet: Sheet?): (records: seq<Record>)
    reads sheet
    ensures sheet == null ==> records == []
    ensures sheet != null ==> |records| == if |sheet.rows| == 0 then 0 else |sheet.rows| - 1
    ensures sheet != null ==> forall i :: 0 <= i < |records| ==>
      records[i] == RowToRecord(sheet.rows[0], sheet.rows[i + 1]) &&
      forall h :: h in sheet.rows[0] ==> CellToString(h) in records[i]
  {
    if sheet == null then [] else SheetRecords(sheet.rows)
  }

  /** `createRow(sheet, data)` */
  method CreateRow(sheet: Sheet?, data: Option<Record>) returns (c: Completion)
    requires sheet != null ==> sheet.Valid()
    modifies sheet
    ensures sheet == null ==> c == Normal(Error(SheetNotFound))
    ensures sheet != null ==> sheet.Valid() && (c, sheet.rows) == CreateEffect(old(sheet.rows), data)
  {
    if sheet == null {
      return Normal(Error(SheetNotFound));
    }
    var headers := sheet.rows[0];
    if data.None? {
      return Thrown(TypeErrorReading(CellToString(headers[0])));
    }
    var newRow := NewRow(headers, data.value);
    sheet.rows := sheet.rows + [newRow];
    return Normal(Success);
  }

  /** `updateRow(sheet, data)`: scans the data rows from the second row on and rewrites the
      first whose id matches. */
  method UpdateRow(sheet: Sheet?, data: Option<Record>) returns (c: Completion)
    requires sheet != null ==> sheet.Valid()
    modifies sheet
    ensures sheet == null ==> c == Normal(Error(SheetNotFound))
    ensures sheet != null ==> sheet.Valid() && (c, sheet.rows) == UpdateEffect(old(sheet.rows), data)
  {
    if sheet == null {
      return Normal(Error(SheetNotFound));
    }
    var values := sheet.rows;
    var headers := values[0];
    var idIndex := IndexOf(headers, Str("id"));
    var i := 1;
    while i < |values|
      invariant 1 <= i <= |values|
      invariant sheet.rows == values
      invariant i > 1 ==> data.Some?
      invariant data.Some? ==>
        MatchingRow(values, CellToString(Lookup(data.value, "id"))) ==
        FirstRowWithId(values, idIndex, CellToString(Lookup(data.value, "id")), i)
    {
      if data.None? {
        return Thrown(TypeErrorReading("id"));
      }
      var id := CellToString(Lookup(data.value, "id"));
      if CellToString(CellAt(values[i], idIndex)) == id {
        UpdateEffectAt(values, data.value, i);
        sheet.rows := values[i := MergedRow(headers, data.value, values[i])];
        return Normal(Success);
      }
      i := i + 1;
    }
    return Normal(Error(IdNotFound));
  }

  /** `deleteRow(sheet, id)`: removes the first data row whose id matches. */
  method DeleteRow(sheet: Sheet?, id: Value) returns (c: Completion)
    requires sheet != null ==> sheet.Valid()
    modifies sheet
    ensures sheet == null ==> c == Normal(Error(SheetNotFound))
    ensures sheet != null ==> sheet.Valid() && (c, sheet.rows) == DeleteEffect(old(sheet.rows), id)
  {
    if sheet == null {
      return Normal(Error(SheetNotFound));
    }
    var values := sheet.rows;
    var idIndex := IndexOf(values[0], Str("id"));
    var idText := CellToString(id);
    var i := 1;
    while i < |values|
      invariant 1 <= i <= |values|
      invariant sheet.rows == values
      invariant MatchingRow(values, idText) == FirstRowWithId(values, idIndex, idText, i)
    {
      if CellToString(CellAt(values[i], idIndex)) == idText {
        assert MatchingRow(values, idText) == Some(i);
        DeleteEffectAt(values, id, i);
        sheet.rows := values[..i] + values[i + 1..];
        return Normal(Success);
      }
      i := i + 1;
    }
    assert MatchingRow(values, idText) == None;
    assert DeleteEffect(values, id) == (Normal(Error(IdNotFound)), values);
    return Normal(Error(IdNotFound));
  }

  // ---------------------------------------------------------------------------------------
  // Dispatch

  datatype Operation = Create | Update | Delete

  /** The sheet and writer each action name goes to. */
  function Route(action: string): (r: Option<(string, Operation)>)
    ensures r.Some? ==> r.value.0 in {"announcements", "resources", "documents"}
  {
    if action == "createAnnouncement" then Some(("announcements", Create))
    else if action == "updateAnnouncement" then Some(("announcements", Update))
    else if action == "deleteAnnouncement" then Some(("announcements", Delete))
    else if action == "createResource" then Some(("resources", Create))
    else if action == "updateResource" then Some(("resources", Update))
    else if action == "deleteResource" then Some(("resources", Delete))
    else if action == "createDocument" then Some(("documents", Create))
    else if action == "updateDocument" then Some(("documents", Update))
    else if action == "deleteDocument" then Some(("documents", Delete))
    else None
  }

  const Actions: seq<string> := [
    "createAnnouncement", "updateAnnouncement", "deleteAnnouncement",
    "createResource", "updateResource", "deleteResource",
    "createDocument", "updateDocument", "deleteDocument"]

  /** The nine action names, and only they, are routed, each to a different sheet and writer. */
  lemma RouteIsOneToOne(a: string, b: string)
    ensures Route(a).Some? <==> a in Actions
    ensures Route(a).Some? && Route(a) == Route(b) ==> a == b
  {
  }

  /** The reply `doPost` sends for a writer's completion: a thrown error becomes an error
      reply carrying its text. */
  function Catch(c: Completion): (reply: Reply)
    ensures c.Normal? ==> reply == c.reply
    ensures c.Thrown? ==> reply == Error(c.message)
  {
    match c
    case Normal(r) => r
    case Thrown(m) => Error(m)
  }

  /** The completion of a routed action when its sheet is missing. The delete actions read
      `data.id` before calling `deleteRow`, so an absent `data` throws even then. */
  function MissingSheetEffect(op: Operation, data: Option<Record>): (c: Completion)
    ensures c.Thrown? <==> op == Delete && data.None?
    ensures c.Normal? ==> c.reply == Error(SheetNotFound)
  {
    if op == Delete && data.None? then Thrown(TypeErrorReading("id"))
    else Normal(Error(SheetNotFound))
  }

  /** The completion and new rows of a routed action on an existing sheet. */
  function SheetEffect(op: Operation, rows: seq<Row>, data: Option<Record>): (result: (Completion, seq<Row>))
    requires |rows| >= 1 && |rows[0]| >= 1
    ensures WellShaped(rows) ==> WellShaped(result.1)
  {
    match op
    case Create => CreateEffect(rows, data)
    case Update => UpdateEffect(rows, data)
    case Delete =>
      if data.None? then (Thrown(TypeErrorReading("id")), rows)
      else DeleteEffect(rows, Lookup(data.value, "id"))
  }

  /** The call the `if` chain of `doPost` makes for a routed action. */
  method RunWriter(op: Operation, sheet: Sheet?, data: Option<Record>) returns (c: Completion)
    requires sheet != null ==> sheet.Valid()
    modifies sheet
    ensures sheet == null ==> c == MissingSheetEffect(op, data)
    ensures sheet != null ==> sheet.Valid() && (c, sheet.rows) == SheetEffect(op, old(sheet.rows), data)
  {
    match op {
      case Create =>
        c := CreateRow(sheet, data);
      case Update =>
        c := UpdateRow(sheet, data);
      case Delete =>
        if data.None? {
          c := Thrown(TypeErrorReading("id"));
        } else {
          c := DeleteRow(sheet, Lookup(data.value, "id"));
        }
    }
  }

  /** The spreadsheet: its sheets by name. */
  class Spreadsheet {
    var sheets: map<string, Sheet>

    ghost predicate Valid()
      reads this, sheets.Values
    {
      forall s :: s in sheets.Values ==> s.Valid()
    }

    function GetSheetByName(name: string): (s: Sheet?)
      reads this
      ensures s != null <==> name in sheets
    {
      if name in sheets then sheets[name] else null
    }

    /** The sheet an action writes to, if the action is known and the sheet exists. */
    function Target(action: string): (t: Sheet?)
      reads this
      ensures t != null ==> Route(action).Some? && Route(action).value.0 in sheets && t == sheets[Route(action).value.0]
      ensures t != null ==> t in sheets.Values
    {
      match Route(action)
      case None => null
      case Some(route) => GetSheetByName(route.0)
    }

    /** `records` is what reading sheet `name` gives: nothing for a missing sheet, otherwise one
        record per data row, in order, keyed by the header row. */
    ghost predicate ReadsAs(name: string, records: seq<Record>)
      reads this, sheets.Values
    {
      (name !in sheets ==> records == []) &&
      (name in sheets ==>
        |records| == |sheets[name].rows| - 1 &&
        forall i :: 0 <= i < |records| ==> records[i] == RowToRecord(sheets[name].rows[0], sheets[name].rows[i + 1]))
    }

    lemma ReadingSheet(name: string)
      requires Valid()
      ensures ReadsAs(name, GetSheetData(GetSheetByName(name)))
    {
      if name in sheets {
        assert sheets[name] in sheets.Values;
      }
    }

    /** `doGet`: the records of the three sheets. */
    function DoGet(): (r: (seq<Record>, seq<Record>, seq<Record>))
      reads this, sheets.Values
      requires Valid()
      ensures ReadsAs("announcements", r.0) && ReadsAs("resources", r.1) && ReadsAs("documents", r.2)
    {
      ReadingSheet("announcements");
      ReadingSheet("resources");
      ReadingSheet("documents");
      (GetSheetData(GetSheetByName("announcements")),
       GetSheetData(GetSheetByName("resources")),
       GetSheetData(GetSheetByName("documents")))
    }

    /** `doPost(action, data)`: an unknown action answers 'Ação não encontrada' and changes
        nothing; a known one runs its writer on its sheet, any exception becoming an error
        reply; every other sheet is left as it was. */
    method DoPost(action: string, data: Option<Record>) returns (reply: Reply)
      requires Valid()
      modifies sheets.Values
      ensures Valid()
      ensures Route(action).None? ==> reply == Error(ActionNotFound)
      ensures Route(action).Some? && Target(action) == null ==>
        reply == Catch(MissingSheetEffect(Route(action).value.1, data))
      ensures Target(action) != null ==>
        var (c, rows) := SheetEffect(Route(action).value.1, old(Target(action).rows), data);
        reply == Catch(c) && Target(action).rows == rows
      ensures forall s :: s in sheets.Values && s != Target(action) ==> s.rows == old(s.rows)
    {
      reply := Error(ActionNotFound);
      var route := Route(action);
      if route.None? {
        return;
      }
      var (name, op) := route.value;
      var sheet := GetSheetByName(name);
      assert sheet == Target(action);
      var c := RunWriter(op, sheet, data);
      reply := Catch(c);
      forall s | s in sheets.Values && s != sheet ensures s.rows == old(s.rows) && s.Valid() {
        assert old(s.Valid());
      }
    }
  }

  // ---------------------------------------------------------------------------------------
  // Properties

  /** `getSheetData`: for a header `h` that no later column repeats, the record of each data
      row holds, under `h`, the cell in `h`'s column (a string `tags` cell split into its
      segments). */
  predicate LastWithItsKey(headers: Row, j: nat)
    requires j < |headers|
  {
    forall m :: j < m < |headers| ==> CellToString(headers[m]) != CellToString(headers[j])
  }

  lemma {:induction false} RecordField(headers: Row, row: Row, j: nat)
    requires j < |headers| && LastWithItsKey(headers, j)
    ensures RowToRecord(headers, row)[CellToString(headers[j])] == ReadCell(headers[j], CellAt(row, j))
    decreases |headers|
  {
    var n := |headers| - 1;
    var init := headers[..n];
    var key := CellToString(headers[j]);
    var prev := RowToRecord(init, row);
    assert RowToRecord(headers, row) == prev[CellToString(headers[n]) := ReadCell(headers[n], CellAt(row, n))];
    if j < n {
      assert CellToString(headers[n]) != key;
      assert init[j] == headers[j];
      assert LastWithItsKey(init, j) by {
        forall m | j < m < n ensures CellToString(init[m]) != CellToString(init[j]) {
          assert init[m] == headers[m];
        }
      }
      RecordField(init, row, j);
      assert prev[key] == ReadCell(headers[j], CellAt(row, j));
      assert RowToRecord(headers, row)[key] == prev[key];
    } else {
      assert j == n;
    }
  }

  predicate WellFormedTag(t: string) {
    t != "" && ',' !in t && IsTrimmed(t)
  }

  /** Splitting the `", "`-joined tags on `','` yields the first tag and then each other tag
      preceded by the space of the separator. */
  lemma {:induction false} SplitJoinedTags(tags: seq<string>)
    requires |tags| >= 1
    requires forall t :: t in tags ==> ',' !in t
    ensures SplitOn(Join(tags, ", "), ',') == [tags[0]] + seq(|tags| - 1, i requires 0 <= i < |tags| - 1 => " " + tags[i + 1])
    decreases |tags|
  {
    if |tags| == 1 {
      SplitOnWithout(tags[0], ',');
    } else {
      var rest := tags[1..];
      var j := Join(rest, ", ");
      assert Join(tags, ", ") == tags[0] + [','] + (" " + j);
      SplitOnFirst(tags[0], ',', " " + j);
      SplitJoinedTags(rest);
      assert (" " + j)[1..] == j;
      var parts := SplitOn(j, ',');
      assert SplitOn(" " + j, ',') == [" " + parts[0]] + parts[1..];
    }
  }

  /** The segment a tag becomes inside the joined text: the first as it is, the others
      after the space of the separator. */
  function Segment(tags: seq<string>, i: nat): string
    requires i < |tags|
  {
    if i == 0 then tags[0] else " " + tags[i]
  }

  lemma TrimSegment(tags: seq<string>, i: nat)
    requires i < |tags| && WellFormedTag(tags[i])
    ensures Trim(Segment(tags, i)) == tags[i]
  {
    if i == 0 {
      TrimOfTrimmed(tags[0]);
    } else {
      TrimDropsLeadingSpace(tags[i]);
    }
  }

  /** The segments of joined well-formed tags, trimmed, are the tags. */
  lemma TrimSegments(tags: seq<string>)
    requires |tags| >= 1
    requires forall t :: t in tags ==> WellFormedTag(t)
    ensures Map([tags[0]] + seq(|tags| - 1, i requires 0 <= i < |tags| - 1 => " " + tags[i + 1]), Trim) == tags
  {
    var parts := [tags[0]] + seq(|tags| - 1, i requires 0 <= i < |tags| - 1 => " " + tags[i + 1]);
    var trimmed := Map(parts, Trim);
    forall i | 0 <= i < |tags| ensures trimmed[i] == tags[i] {
      assert tags[i] in tags;
      assert parts[i] == Segment(tags, i);
      TrimSegment(tags, i);
    }
    assert trimmed == tags;
  }

  /** Tags survive storage: joining a list of well-formed tags with `", "` when writing and
      splitting, trimming and dropping empty segments when reading gives the same list. */
  lemma TagsRoundTrip(tags: seq<string>)
    requires forall t :: t in tags ==> WellFormedTag(t)
    ensures SplitTags(Join(tags, ", ")) == tags
  {
    if |tags| == 0 {
      assert SplitOn("", ',') == [""];
      assert Map([""], Trim) == [""];
    } else {
      SplitJoinedTags(tags);
      TrimSegments(tags);
      FilterAll(tags, IsNonEmpty);
    }
  }

  /** A value the store writes and reads back unchanged: anything defined, provided a value
      under `tags` is a list of well-formed tags. */
  predicate Storable(h: Value, v: Value) {
    v != Undefined && (IsTagsHeader(h) ==> v.StrList? && forall t :: t in v.items ==> WellFormedTag(t))
  }

  lemma StoredValueReadsBack(h: Value, v: Value)
    requires Storable(h, v)
    ensures ReadCell(h, WriteCell(h, v)) == v
  {
    if IsTagsHeader(h) {
      TagsRoundTrip(v.items);
    }
  }

  /** `createRow` appends exactly one row, laid out in header order, and leaves every existing
      row, the header included, as it was. */
  lemma CreateAppendsOneRow(rows: seq<Row>, data: Record)
    requires |rows| >= 1 && |rows[0]| >= 1
    ensures var (c, after) := CreateEffect(rows, Some(data));
      c == Normal(Success) && |after| == |rows| + 1 && after[..|rows|] == rows &&
      after[|rows|] == NewRow(rows[0], data)
  {
  }

  /** Reading the sheet after `createRow` gives the records it gave before, followed by one
      record holding, under every header that no later column repeats, the value the request
      carried, when that value is storable. */
  lemma ReadAfterCreate(rows: seq<Row>, data: Record)
    requires |rows| >= 1 && |rows[0]| >= 1
    ensures var after := CreateEffect(rows, Some(data)).1;
      var records := SheetRecords(after);
      |records| == |rows| && records[..|rows| - 1] == SheetRecords(rows) &&
      forall j :: 0 <= j < |rows[0]| && LastWithItsKey(rows[0], j) && Storable(rows[0][j], Lookup(data, CellToString(rows[0][j]))) ==>
        records[|rows| - 1][CellToString(rows[0][j])] == Lookup(data, CellToString(rows[0][j]))
  {
    var headers := rows[0];
    var after := CreateEffect(rows, Some(data)).1;
    var records := SheetRecords(after);
    var row := NewRow(headers, data);
    assert after[0] == headers && after[|rows|] == row;
    forall j | 0 <= j < |headers| && LastWithItsKey(headers, j) && Storable(headers[j], Lookup(data, CellToString(headers[j])))
      ensures records[|rows| - 1][CellToString(headers[j])] == Lookup(data, CellToString(headers[j]))
    {
      RecordField(headers, row, j);
      StoredValueReadsBack(headers[j], Lookup(data, CellToString(headers[j])));
    }
  }

  /** `updateRow` with a request: it succeeds exactly when some data row's id matches
      `String(data.id)`; then it rewrites the first such row and nothing else, the header
      included; otherwise it answers 'ID não encontrado' and changes nothing. */
  lemma UpdateRewritesFirstMatch(rows: seq<Row>, data: Record)
    requires |rows| >= 1
    ensures var (c, after) := UpdateEffect(rows, Some(data));
      var id := CellToString(Lookup(data, "id"));
      (c == Normal(Success) <==> exists k :: 1 <= k < |rows| && RowHasId(rows[k], IdColumn(rows), id)) &&
      (c != Normal(Success) ==> c == Normal(Error(IdNotFound)) && after == rows) &&
      (c == Normal(Success) ==> var k := MatchingRow(rows, id).value;
        |after| == |rows| && after[0] == rows[0] && 1 <= k &&
        RowHasId(rows[k], IdColumn(rows), id) &&
        (forall m :: 1 <= m < k ==> !RowHasId(rows[m], IdColumn(rows), id)) &&
        (forall m :: 0 <= m < |rows| && m != k ==> after[m] == rows[m]) &&
        after[k] == MergedRow(rows[0], data, rows[k]))
  {
  }

  lemma {:induction false} IndexOfFirstOccurrence(row: Row, j: nat)
    requires j < |row| && row[j] !in row[..j]
    ensures IndexOf(row, row[j]) == j
    decreases j
  {
    if j > 0 {
      assert row[0] == row[..j][0];
      assert row[1..][j - 1] == row[j];
      assert row[1..][..j - 1] == row[1..j];
      assert forall x :: x in row[1..j] ==> x in row[..j];
      IndexOfFirstOccurrence(row[1..], j - 1);
    }
  }

  /** An id cell the sheet holds as a number matches the requested id made by
      `Date.now().toString()` at instant `m` exactly when it holds `m`. */
  lemma NumericIdMatches(row: Row, idIndex: int, n: int, m: int)
    requires 0 <= idIndex < |row| && row[idIndex] == Num(n)
    ensures RowHasId(row, idIndex, IntToString(m)) <==> n == m
  {
    if RowHasId(row, idIndex, IntToString(m)) {
      IntToStringInjective(n, m);
    }
  }

  /** In the row `updateRow` writes, a column whose header the request does not define keeps
      its old cell, provided it is the first column with that header; a defined field is
      written as `createRow` would write it. */
  lemma MergeKeepsUndefinedFields(headers: Row, data: Record, current: Row, j: nat)
    requires j < |headers| && headers[j] !in headers[..j]
    ensures CellToString(headers[j]) !in data ==> MergedRow(headers, data, current)[j] == CellAt(current, j)
    ensures CellToString(headers[j]) in data && data[CellToString(headers[j])] != Undefined ==>
      MergedRow(headers, data, current)[j] == WriteCell(headers[j], data[CellToString(headers[j])])
  {
    IndexOfFirstOccurrence(headers, j);
  }

  /** `deleteRow`: it succeeds exactly when some data row's id matches; then it removes exactly
      the first such row, the others keeping their order, and the row count drops by one;
      otherwise it answers 'ID não encontrado' and changes nothing. */
  lemma DeleteRemovesFirstMatch(rows: seq<Row>, id: Value)
    requires |rows| >= 1
    ensures var (c, after) := DeleteEffect(rows, id);
      (c == Normal(Success) <==> exists k :: 1 <= k < |rows| && RowHasId(rows[k], IdColumn(rows), CellToString(id))) &&
      (c != Normal(Success) ==> c == Normal(Error(IdNotFound)) && after == rows) &&
      (c == Normal(Success) ==> var k := MatchingRow(rows, CellToString(id)).value;
        |after| == |rows| - 1 && after[0] == rows[0] && 1 <= k &&
        RowHasId(rows[k], IdColumn(rows), CellToString(id)) &&
        (forall m :: 1 <= m < k ==> !RowHasId(rows[m], IdColumn(rows), CellToString(id))) &&
        after == rows[..k] + rows[k + 1..] &&
        multiset(after) + multiset{rows[k]} == multiset(rows))
  {
    var idText := CellToString(id);
    match MatchingRow(rows, idText)
    case None =>
      assert DeleteEffect(rows, id) == (Normal(Error(IdNotFound)), rows);
    case Some(k) =>
      var after := rows[..k] + rows[k + 1..];
      assert DeleteEffect(rows, id) == (Normal(Success), after);
      assert rows == rows[..k] + [rows[k]] + rows[k + 1..];
      assert multiset(after) + multiset{rows[k]} == multiset(rows);
  }
}

=== FILE: teacher_portal.dfy ===
/** The teachers' page: the active resources, a row of category buttons headed by 'Todos',
    the resources of the selected category grouped into one section per category, and the
    two empty-state messages. */
module TeacherPortal {
  import opened Collections
  import opened Grouping
  import opened Domain

  /** The button that selects every category, and the initial selection. */
  const All := "Todos"

  predicate IsActive(r: Resource) {
    r.active
  }

  function CategoryOf(r: Resource): string {
    r.category
  }

  /** `resources.filter(r => r.active)`: the active resources, and no inactive one. */
  function ActiveResources(resources: seq<Resource>): (r: seq<Resource>)
    ensures forall x :: x in r <==> x in resources && x.active
  {
    Filter(resources, IsActive)
  }

  /** The filter keeps every copy of an active resource. */
  lemma ActiveKeepsEveryCopy(resources: seq<Resource>, x: Resource)
    ensures multiset(ActiveResources(resources))[x] == if x.active then multiset(resources)[x] else 0
  {
    FilterCount(resources, IsActive, x);
  }

  /** A category appears among the active resources' categories exactly when some active
      resource has it. */
  lemma ActiveCategory(resources: seq<Resource>, c: string)
    ensures c in Map(ActiveResources(resources), CategoryOf) <==> exists x :: x in resources && x.active && x.category == c
  {
    var active := ActiveResources(resources);
    var labels := Map(active, CategoryOf);
    if c in labels {
      var i :| 0 <= i < |labels| && labels[i] == c;
      assert active[i] in active;
    }
    if exists x :: x in resources && x.active && x.category == c {
      var x :| x in resources && x.active && x.category == c;
      var i :| 0 <= i < |active| && active[i] == x;
      assert labels[i] == c;
    }
  }

  /** `new Set(activeResources.map(r => r.category))`: the categories of the active
      resources, each once, in the order they first appear. */
  function ActiveCategories(resources: seq<Resource>): (cats: seq<string>)
    ensures NoDuplicates(cats)
  {
    Distinct(Map(ActiveResources(resources), CategoryOf))
  }

  /** The category buttons: 'Todos' and then the active categories. */
  function CategoryList(resources: seq<Resource>): (cats: seq<string>)
    ensures |cats| == |ActiveCategories(resources)| + 1 && cats[0] == All
    ensures forall k :: 1 <= k < |cats| ==> cats[k] == ActiveCategories(resources)[k - 1]
  {
    [All] + ActiveCategories(resources)
  }

  /** The buttons after 'Todos' are exactly the categories some active resource has. */
  lemma CategoryListHoldsActiveCategories(resources: seq<Resource>, c: string)
    ensures c in ActiveCategories(resources) <==> exists x :: x in resources && x.active && x.category == c
  {
    ActiveCategory(resources, c);
  }

  /** The active categories stand in the order in which they first appear among the active
      resources: some resource of the earlier one comes before every resource of the later. */
  lemma CategoriesInFirstAppearanceOrder(resources: seq<Resource>, i: nat, j: nat)
    requires i < j < |ActiveCategories(resources)|
    ensures exists a :: 0 <= a < |ActiveResources(resources)| &&
                        ActiveResources(resources)[a].category == ActiveCategories(resources)[i] &&
                        forall b :: (0 <= b < |ActiveResources(resources)| &&
                                     ActiveResources(resources)[b].category == ActiveCategories(resources)[j]) ==> a < b
  {
    var active := ActiveResources(resources);
    var a := DistinctOrderOfMap(active, CategoryOf, i, j);
    assert active[a].category == ActiveCategories(resources)[i];
  }

  /** The resources the selection shows: all active ones for 'Todos', otherwise the active
      ones of the selected category. */
  function Filtered(resources: seq<Resource>, selected: string): (r: seq<Resource>)
    ensures selected == All ==> r == ActiveResources(resources)
    ensures forall x :: x in r <==> x in resources && x.active && (selected == All || x.category == selected)
  {
    var active := ActiveResources(resources);
    if selected == All then active
    else Filter(active, (x: Resource) => x.category == selected)
  }

  /** Selecting a category other than 'Todos' is a single filter over the whole list, so the
      shown resources keep their original relative order. */
  lemma FilteredIsOneFilter(resources: seq<Resource>, selected: string)
    requires selected != All
    ensures Filtered(resources, selected) == Filter(resources, (x: Resource) => x.active && x.category == selected)
  {
    FilterThenFilter(resources, IsActive, (x: Resource) => x.category == selected,
      (x: Resource) => x.active && x.category == selected);
  }

  /** Labels that all equal `c` have at most one distinct value. */
  lemma {:induction false} DistinctOfConstant(labels: seq<string>, c: string)
    requires forall l :: l in labels ==> l == c
    ensures |Distinct(labels)| <= 1
    decreases |labels|
  {
    if |labels| > 0 {
      var init, last := labels[..|labels| - 1], labels[|labels| - 1];
      assert labels == init + [last];
      assert forall l :: l in init ==> l in labels;
      DistinctOfConstant(init, c);
      DistinctSnoc(init, last);
      if |Distinct(init)| == 1 {
        assert Distinct(init)[0] in init && Distinct(init)[0] in labels;
        assert last in labels;
      }
    }
  }

  /** The message that shows when there is no active resource at all. */
  predicate ShowsNoneAvailable(resources: seq<Resource>) {
    |ActiveResources(resources)| == 0
  }

  /** The message that shows when there are active resources but none in the selection. */
  predicate ShowsNoneInCategory(resources: seq<Resource>, selected: string) {
    |ActiveResources(resources)| > 0 && |Filtered(resources, selected)| == 0
  }

  /** "Nenhum recurso disponível" shows exactly when no resource is active. */
  lemma NoneAvailableIffNoActive(resources: seq<Resource>)
    ensures ShowsNoneAvailable(resources) <==> forall x :: x in resources ==> !x.active
  {
    if !ShowsNoneAvailable(resources) {
      assert ActiveResources(resources)[0] in ActiveResources(resources);
    }
  }

  /** "Nenhum recurso encontrado nesta categoria" shows exactly when some resource is active,
      the selection is not 'Todos', and no active resource has the selected category. */
  lemma NoneInCategoryIff(resources: seq<Resource>, selected: string)
    ensures ShowsNoneInCategory(resources, selected) <==>
      (exists x :: x in resources && x.active) && selected != All &&
      forall x :: x in resources && x.active ==> x.category != selected
  {
    var active := ActiveResources(resources);
    var shown := Filtered(resources, selected);
    if |active| > 0 {
      assert active[0] in active;
    }
    if |shown| > 0 {
      assert shown[0] in shown;
    }
  }

  /** The section headings for a selection: the categories of the shown resources, each once,
      in the order they first appear. */
  function SectionCategories(resources: seq<Resource>, selected: string): seq<string> {
    Distinct(Map(Filtered(resources, selected), CategoryOf))
  }

  /** With a category selected, the shown resources form at most one section, the selected
      category's. */
  lemma SelectionHasAtMostOneSection(resources: seq<Resource>, selected: string)
    requires selected != All
    ensures |SectionCategories(resources, selected)| <= 1
    ensures forall c :: c in SectionCategories(resources, selected) ==> c == selected
  {
    var labels := Map(Filtered(resources, selected), CategoryOf);
    forall l | l in labels ensures l == selected {
      var i :| 0 <= i < |labels| && labels[i] == l;
      assert Filtered(resources, selected)[i] in Filtered(resources, selected);
    }
    DistinctOfConstant(labels, selected);
  }

  /** At most one of the two messages shows, and one shows exactly when there is no
      section. */
  lemma OneEmptyStateExactlyWhenNoSection(resources: seq<Resource>, selected: string)
    ensures !(ShowsNoneAvailable(resources) && ShowsNoneInCategory(resources, selected))
    ensures ShowsNoneAvailable(resources) || ShowsNoneInCategory(resources, selected) <==>
      |SectionCategories(resources, selected)| == 0
  {
    var shown := Filtered(resources, selected);
    var labels := Map(shown, CategoryOf);
    if |shown| > 0 {
      assert labels[0] in Distinct(labels);
      assert shown[0] in shown;
      assert shown[0] in ActiveResources(resources);
    }
  }

  /** The sections for a selection: one non-empty section per category among the shown
      resources, in first-appearance order, each with exactly that category's shown resources
      in their original order; with a category selected, at most that one section. */
  method Sections(resources: seq<Resource>, selected: string) returns (sections: seq<(string, seq<Resource>)>)
    ensures |sections| == |SectionCategories(resources, selected)|
    ensures forall k :: 0 <= k < |sections| ==>
      sections[k].0 == SectionCategories(resources, selected)[k] &&
      sections[k].1 == InGroup(Filtered(resources, selected), CategoryOf, sections[k].0) &&
      |sections[k].1| > 0
    ensures selected != All ==> |sections| <= 1
    ensures selected != All ==> forall k :: 0 <= k < |sections| ==> sections[k].0 == selected
  {
    var shown := Filtered(resources, selected);
    sections := GroupBy(shown, CategoryOf);
    forall k | 0 <= k < |sections| ensures |sections[k].1| > 0 {
      GroupOfDistinctLabelIsNonEmpty(shown, CategoryOf, k);
    }
    if selected != All {
      SelectionHasAtMostOneSection(resources, selected);
      forall k | 0 <= k < |sections| ensures sections[k].0 == selected {
        assert sections[k].0 in SectionCategories(resources, selected);
      }
    }
  }

  /** What the page shows: the category buttons, the sections (a heading and its resources;
      the count beside the heading is the number of resources), and the empty-state
      messages. */
  datatype View = View(
    categories: seq<string>,
    sections: seq<(string, seq<Resource>)>,
    noneAvailable: bool,
    noneInCategory: bool)

  /** The page's state: the selected category. */
  class Portal {
    var selectedCategory: string

    constructor ()
      ensures selectedCategory == All
    {
      selectedCategory := All;
    }

    /** A click on a category button selects it. */
    method SelectCategory(category: string)
      modifies this
      ensures selectedCategory == category
    {
      selectedCategory := category;
    }

    /** Renders the page for `resources`: the category buttons, the sections for the current
        selection, at most one empty-state message, and one exactly when there is no section. */
    method Render(resources: seq<Resource>) returns (v: View)
      ensures v.categories == CategoryList(resources)
      ensures |v.sections| == |SectionCategories(resources, selectedCategory)|
      ensures forall k :: 0 <= k < |v.sections| ==>
        v.sections[k].0 == SectionCategories(resources, selectedCategory)[k] &&
        v.sections[k].1 == InGroup(Filtered(resources, selectedCategory), CategoryOf, v.sections[k].0) &&
        |v.sections[k].1| > 0
      ensures selectedCategory != All ==> |v.sections| <= 1
      ensures selectedCategory != All ==> forall k :: 0 <= k < |v.sections| ==> v.sections[k].0 == selectedCategory
      ensures v.noneAvailable == ShowsNoneAvailable(resources)
      ensures v.noneInCategory == ShowsNoneInCategory(resources, selectedCategory)
      ensures !(v.noneAvailable && v.noneInCategory)
      ensures v.noneAvailable || v.noneInCategory <==> |v.sections| == 0
    {
      var groups := Sections(resources, selectedCategory);
      OneEmptyStateExactlyWhenNoSection(resources, selectedCategory);
      v := View(CategoryList(resources), groups, ShowsNoneAvailable(resources), ShowsNoneInCategory(resources, selectedCategory));
    }
  }
}

=== FILE: text.dfy ===
/** JavaScript string operations used by the portal: `trim`, `split` on a one-character
    separator, `Array.prototype.join`, and the decimal rendering of integers. */
module Text {

  /** The characters `String.prototype.trim` and the regular-expression class `\s` treat as
      white space: ECMAScript WhiteSpace (tab, vertical tab, form feed, space, no-break space,
      zero-width no-break space and the Unicode Zs category) and LineTerminator. */
  predicate IsWhitespace(c: char) {
    c == ' ' || c == '\t' || c == '\n' || c == '\r' || c == '\U{000B}' || c == '\U{000C}' ||
    c == '\U{00A0}' || c == '\U{1680}' || ('\U{2000}' <= c <= '\U{200A}') ||
    c == '\U{2028}' || c == '\U{2029}' || c == '\U{202F}' || c == '\U{205F}' ||
    c == '\U{3000}' || c == '\U{FEFF}'
  }

  function TrimStart(s: string): (r: string)
    ensures |r| <= |s| && r == s[|s| - |r|..]
    ensures r == [] || !IsWhitespace(r[0])
    ensures forall i {:trigger IsWhitespace(s[i])} :: 0 <= i < |s| - |r| ==> IsWhitespace(s[i])
  {
    if |s| > 0 && IsWhitespace(s[0]) then TrimStart(s[1..]) else s
  }

  function TrimEnd(s: string): (r: string)
    ensures |r| <= |s| && r == s[..|r|]
    ensures r == [] || !IsWhitespace(r[|r| - 1])
    ensures forall i {:trigger IsWhitespace(s[i])} :: |r| <= i < |s| ==> IsWhitespace(s[i])
  {
    if |s| > 0 && IsWhitespace(s[|s| - 1]) then TrimEnd(s[..|s| - 1]) else s
  }

  /** `s.trim()`: the slice of `s` left once the white space at both ends is dropped. */
  function Trim(s: string): (r: string)
    ensures var a := |s| - |TrimStart(s)|;
      a + |r| <= |s| && (forall i :: 0 <= i < |r| ==> r[i] == s[a + i]) &&
      (forall i {:trigger IsWhitespace(s[i])} :: 0 <= i < a ==> IsWhitespace(s[i])) &&
      (forall i {:trigger IsWhitespace(s[i])} :: a + |r| <= i < |s| ==> IsWhitespace(s[i]))
    ensures r == [] || (!IsWhitespace(r[0]) && !IsWhitespace(r[|r| - 1]))
  {
    var t := TrimStart(s);
    var r := TrimEnd(t);
    SpaceFramedSlice(s, t, r);
    r
  }

  /** A prefix `r` of a suffix `t` of `s`, where `s` has only white space before `t` and `t`
      only white space after `r`, is a slice of `s` with only white space around it. */
  lemma SpaceFramedSlice(s: string, t: string, r: string)
    requires |t| <= |s| && t == s[|s| - |t|..]
    requires forall i {:trigger IsWhitespace(s[i])} :: 0 <= i < |s| - |t| ==> IsWhitespace(s[i])
    requires |r| <= |t| && r == t[..|r|]
    requires forall i {:trigger IsWhitespace(t[i])} :: |r| <= i < |t| ==> IsWhitespace(t[i])
    ensures var a := |s| - |t|;
      a + |r| <= |s| && (forall i :: 0 <= i < |r| ==> r[i] == s[a + i]) &&
      (forall i {:trigger IsWhitespace(s[i])} :: 0 <= i < a ==> IsWhitespace(s[i])) &&
      (forall i {:trigger IsWhitespace(s[i])} :: a + |r| <= i < |s| ==> IsWhitespace(s[i]))
  {
    var a := |s| - |t|;
    forall i | 0 <= i < |r| ensures r[i] == s[a + i] {
      assert r[i] == t[i];
    }
    forall i | a + |r| <= i < |s| ensures IsWhitespace(s[i]) {
      assert s[i] == t[i - a];
      assert IsWhitespace(t[i - a]);
    }
  }

  /** A string that `trim` leaves as it is. */
  predicate IsTrimmed(s: string) {
    s == [] || (!IsWhitespace(s[0]) && !IsWhitespace(s[|s| - 1]))
  }

  lemma TrimOfTrimmed(s: string)
    requires IsTrimmed(s)
    ensures Trim(s) == s
  {
  }

  lemma {:induction false} TrimDropsLeadingSpace(s: string)
    requires IsTrimmed(s)
    ensures Trim(" " + s) == s
  {
    assert (" " + s)[1..] == s;
    TrimOfTrimmed(s);
  }

  /** `s.split(sep)` for a one-character separator: the maximal segments between separators,
      so there is always one more segment than there are separators. */
  function SplitOn(s: string, sep: char): (parts: seq<string>)
    ensures |parts| >= 1
    decreases |s|
  {
    if |s| == 0 then [""]
    else
      var rest := SplitOn(s[1..], sep);
      if s[0] == sep then [""] + rest else [[s[0]] + rest[0]] + rest[1..]
  }

  lemma {:induction false} SplitOnWithout(s: string, sep: char)
    requires sep !in s
    ensures SplitOn(s, sep) == [s]
    decreases |s|
  {
    if |s| > 0 {
      SplitOnWithout(s[1..], sep);
      assert [s[0]] + s[1..] == s;
    }
  }

  lemma {:induction false} SplitOnFirst(a: string, sep: char, b: string)
    requires sep !in a
    ensures SplitOn(a + [sep] + b, sep) == [a] + SplitOn(b, sep)
    decreases |a|
  {
    var s := a + [sep] + b;
    if |a| == 0 {
      assert s[1..] == b;
    } else {
      assert s[1..] == a[1..] + [sep] + b;
      SplitOnFirst(a[1..], sep, b);
      assert [a[0]] + a[1..] == a;
    }
  }

  /** `xs.join(sep)`: the items in order with `sep` between neighbours. */
  function Join(xs: seq<string>, sep: string): (r: string)
    ensures |xs| == 0 ==> r == ""
    ensures |xs| == 1 ==> r == xs[0]
    ensures |xs| >= 2 ==> xs[0] + sep <= r
    decreases |xs|
  {
    if |xs| == 0 then ""
    else if |xs| == 1 then xs[0]
    else xs[0] + sep + Join(xs[1..], sep)
  }

  /** The decimal digits of `n`, without leading zeros. */
  function NatToDecimal(n: nat): (r: string)
    ensures |r| >= 1
    ensures forall i :: 0 <= i < |r| ==> '0' <= r[i] <= '9'
    ensures r[0] == '0' <==> n == 0
  {
    if n < 10 then [DigitChar(n)]
    else NatToDecimal(n / 10) + [DigitChar(n % 10)]
  }

  function DigitChar(d: nat): (c: char)
    requires d < 10
    ensures '0' <= c <= '9'
  {
    ['0', '1', '2', '3', '4', '5', '6', '7', '8', '9'][d]
  }

  /** `String(n)` / `n.toString()` for an integer-valued number. */
  function IntToString(n: int): (r: string)
    ensures |r| >= 1
    ensures r[0] == '-' <==> n < 0
  {
    if n < 0 then "-" + NatToDecimal(-n) else NatToDecimal(n)
  }

  lemma DigitCharInjective(a: nat, b: nat)
    requires a < 10 && b < 10 && DigitChar(a) == DigitChar(b)
    ensures a == b
  {
  }

  /** Distinct numbers have distinct decimal renderings, so ids made from distinct
      timestamps differ. */
  lemma {:induction false} NatToDecimalInjective(a: nat, b: nat)
    requires NatToDecimal(a) == NatToDecimal(b)
    ensures a == b
  {
    var ra, rb := NatToDecimal(a), NatToDecimal(b);
    if a < 10 && b < 10 {
      DigitCharInjective(a, b);
    } else if a >= 10 && b >= 10 {
      assert ra[|ra| - 1] == DigitChar(a % 10) && rb[|rb| - 1] == DigitChar(b % 10);
      DigitCharInjective(a % 10, b % 10);
      assert ra[..|ra| - 1] == NatToDecimal(a / 10);
      assert rb[..|rb| - 1] == NatToDecimal(b / 10);
      NatToDecimalInjective(a / 10, b / 10);
    }
  }

  /** A leading minus sign can be dropped from both sides of an equation. */
  lemma DropSign(x: string, y: string)
    requires "-" + x == "-" + y
    ensures x == y
  {
    assert x == ("-" + x)[1..];
    assert y == ("-" + y)[1..];
  }

  lemma IntToStringInjective(a: int, b: int)
    requires IntToString(a) == IntToString(b)
    ensures a == b
  {
    assert a < 0 <==> b < 0 by {
      assert IntToString(a)[0] == IntToString(b)[0];
    }
    if a < 0 {
      var x, y := NatToDecimal(-a), NatToDecimal(-b);
      DropSign(x, y);
      NatToDecimalInjective(-a, -b);
    } else {
      NatToDecimalInjective(a, b);
    }
  }

}
